=== FILE: README.md ===
# SIGESCON contract workflow: a Dafny model

This project models the part of SIGESCON, a Flask and PostgreSQL back end for public contract management, where the state changes happen. It covers:

- the fiscal report (relatório fiscal) lifecycle:
  - the upload check;
  - submission, which answers a pendência and concludes it;
  - analysis by an administrator, with the rejection e-mail;
  - resubmission, which resets the report for a new analysis.
- pendência creation and listing;
- the daily deadline sweep that e-mails reminders;
- the role gates on the routes (`admin_required`, `fiscal_required`, `jwt_required`);
- contract creation:
  - the required-field and reference checks;
  - the allow-listed insert;
  - the designation e-mails;
  - the optional contract document.
- contract reading, filtered listing, partial update and soft delete;
- the idempotent seeder of lookup tables and the administrator account.

The database is an immutable `Db.Store`:
- Each table is a map from id to row, plus the next value of its id sequence.
- E-mail is an outbox, `Db.SendEmail`, because `send_email` swallows its own failures.
- A contract row is a column map, as a `RealDictCursor` returns it, so the allow-listed insert and the arbitrary-key update can be stated.

Every route is a pure function from the request and the store to an `Http.Outcome`, which is the HTTP code, the JSON payload and the store afterwards.

Some inputs become parameters:
- the clock is `now` or `today`, a day number;
- the uploaded file's stored name, path, MIME type and size are fields of `RelatorioRoutes.Upload`;
- the token's claims are `AuthDecorators.Token`;
- the administrator e-mail and password come from the environment; an unset password is `None`.

`status_relatorio_repo.find_statusrelatorio_by_name` is called by the report routes but is not defined in `app/repository/status_relatorio_repo.py`. As written, the submission route therefore answers 500 before it stores anything, and the analysis route answers 500 after its update has committed (see "## Findings"). The intended routes use `RelatorioRoutes.FindStatusRelatorioByName`, a lookup of an id holding exactly that name, like `find_statuspendencia_by_name`.

Some behaviour of the code is worth knowing when reading the routes:

- Pendência creation carries no role decorator (app/routes/pendencia_routes.py:9-10), so a request without a token can create one.
- Pendência creation stores the status the client sends (`PendenciaRoutes.InitialStatusIsClients`). No initial status is forced.
- Submission never checks that `pendencia_id` names an existing pendência, or one of the same contract. `RelatorioRoutes.SubmitHandler` answers 201 either way, and only an existing pendência is concluded.
- Analysis accepts any status id stored in `statusrelatorio`, not only the approval and rejection statuses.
- Resubmission is accepted from any report status (`RelatorioRepo.ReenvioAfterAnalysisResets`).

## Model

| member | source | states |
|---|---|---|
| AuthDecorators.AdminRequired | app/auth_decorators.py:6-16 | no valid token gives 401; a token whose `perfil` claim is not exactly 'Administrador' gives 403; both leave the store untouched; an administrator gets the wrapped handler's own outcome |
| AuthDecorators.FiscalRequired | app/auth_decorators.py:18-28 | 401 without a token; 403 unless the claim is 'Fiscal' or 'Administrador', store untouched; otherwise the handler's outcome |
| AuthDecorators.JwtRequired | app/routes/contrato_routes.py:83-85 | `jwt_required` alone: 401 without a valid token, and any role passes |
| AuthDecorators.FiscalAdmitsExactly | app/auth_decorators.py:24-25 | the fiscal gate admits exactly the two profiles 'Fiscal' and 'Administrador' |
| AuthDecorators.AdminImpliesFiscal | app/auth_decorators.py:6-28 | every token the admin gate admits, the fiscal gate admits with the same outcome |
| AuthDecorators.GestorAndMissingClaimRejected | app/auth_decorators.py:6-28 | a 'Gestor' token, or one without a `perfil` claim, gets 403 from both gates with the store unchanged |
| AuthDecorators.FiscalIsNotAdmin | app/auth_decorators.py:6-28 | a 'Fiscal' token passes the fiscal gate and gets 403 from the admin gate |
| Lookups.FindIdByName | app/repository/status_pendencia_repo.py:38-45 | the id found holds exactly that name; None only when no row of the table has that name; of several holders the lowest id is returned, which is the model's choice (see "## Left out") |
| Lookups.FindUserById | app/repository/usuario_repo.py:49-56 | a user is found iff the row exists and is active, and the row is returned |
| Lookups.FindContratadoById | app/repository/contratado_repo.py:35-43 | a contracted party is found iff it exists and is active |
| Lookups.AsId | app/routes/contrato_routes.py:23-27 | a request value used as an integer id is accepted iff it is an integer, or a decimal numeral no larger than 2147483647 (PostgreSQL's `integer`), and it denotes that number; anything else is an error, and every error except `null` makes the query raise |
| Lookups.FormIdReadsBack | app/routes/contrato_routes.py:23-27 | an id rendered in decimal and sent as a form field reads back as the same id when it fits `integer`, and makes the query raise when it does not |
| StatusPendenciaRepo.FindStatusPendenciaById | app/repository/status_pendencia_repo.py:20-27 | found iff a status row with that id exists, with its name |
| StatusPendenciaRepo.FindStatusPendenciaByName | app/repository/status_pendencia_repo.py:38-45 | the id returned names exactly that status; None means no row has the name |
| StatusPendenciaRepo.UpdatePendenciaStatus | app/repository/status_pendencia_repo.py:47-61 | an unknown id changes nothing and returns None; otherwise only that pendência changes, and only its status and `updated_at`, whatever the old status was |
| PendenciaRepo.CreatePendencia | app/repository/pendencia_repo.py:5-29 | one new row at the next id, holding the URL's contract and the four body fields; nothing else changes |
| PendenciaRepo.GetPendenciasByContratoId | app/repository/pendencia_repo.py:31-49 | lists every pendência of the contract, whatever its status, and only those, ordered by `data_prazo` ascending; when every row sits at its own id, each pendência appears once |
| PendenciaRoutes.FirstMissing | app/routes/pendencia_routes.py:14-17 | names the first absent field in the route's order, and is None iff all four are present |
| PendenciaRoutes.Create | app/routes/pendencia_routes.py:9-30 | checks in order: 400 for a missing field, then 404 for the contract, the creator and the status; 201 iff all pass, with the new row carrying the body's values; nothing is stored unless 201 |
| PendenciaRoutes.ListAll | app/routes/pendencia_routes.py:33-40 | 404 iff the contract is missing or soft-deleted, otherwise 200 with the contract's pendências; read-only |
| PendenciaRoutes.InitialStatusIsClients | app/routes/pendencia_routes.py:23-27 | any existing status the client names becomes the new pendência's status |
| RelatorioRepo.CreateRelatorio | app/repository/relatorio_repo.py:5-31 | a new row at the next id with exactly the given fields and empty analysis columns; other tables untouched |
| RelatorioRepo.FindRelatorioById | app/repository/relatorio_repo.py:79-85 | found iff the row exists; reports have no active flag |
| RelatorioRepo.AnaliseRelatorio | app/repository/relatorio_repo.py:33-52 | status, approver, approver remarks and analysis time are set together and no other column changes; an unknown id changes nothing |
| RelatorioRepo.UpdateRelatorioReenvio | app/repository/relatorio_repo.py:54-77 | new file and fiscal remarks; status back to id 1 with the analysis cleared; contract, fiscal, month, pendência and creation time kept; an unknown id changes nothing |
| RelatorioRepo.ReenvioIdempotent | app/repository/relatorio_repo.py:54-77 | a second identical resubmission leaves the row as the first did, apart from `updated_at` |
| RelatorioRepo.ReenvioAfterAnalysisResets | app/repository/relatorio_repo.py:33-77 | whatever an analysis wrote, a later resubmission resets the report for analysis and keeps its identity |
| RelatorioRepo.FindRelatoriosByContratoId | app/repository/relatorio_repo.py:87-111 | lists exactly the contract's reports, newest `created_at` first; when every row sits at its own id, each report appears once |
| RelatorioRoutes.AllowedFile | app/routes/relatorio_routes.py:14-17 | an accepted name contains a dot |
| RelatorioRoutes.AllowedFileIff | app/routes/relatorio_routes.py:15-17 | a name is accepted iff the text after its last dot, lower-cased, is one of pdf, doc, docx, xls, xlsx, txt |
| RelatorioRoutes.AllowedFileAccepts | app/routes/relatorio_routes.py:15-17 | "X.PDF" and "a.tar.docx" are accepted: case is ignored and only the last suffix counts |
| RelatorioRoutes.AllowedFileRejects | app/routes/relatorio_routes.py:15-17 | "pdf", "a.pdf.zip" and "a." are refused |
| RelatorioRoutes.UploadError | app/routes/relatorio_routes.py:21-29 | no error iff the file part is present, has a non-empty name and an allowed extension |
| RelatorioRoutes.HandleFileUpload | app/routes/relatorio_routes.py:19-44 | fails exactly when validation fails, with the store untouched; otherwise exactly one `arquivo` row owned by the contract, holding the saved file's name, path, type and size |
| RelatorioRoutes.FindStatusRelatorioByName | app/routes/relatorio_routes.py:65 | the intended lookup: an id found names a status row holding exactly that name; None only when no row has the name |
| RelatorioRoutes.FormChecks | app/routes/relatorio_routes.py:50-60 | checks in order: 404 for a missing or soft-deleted contract, 400 without `pendencia_id`, 400 without month or fiscal; passes iff all three hold; a failure stores nothing |
| RelatorioRoutes.SubmitChecks | app/routes/relatorio_routes.py:50-69 | the form checks decide first, with their own answer; after them only a missing default status can fail, with 500; passes iff all hold; a failure stores nothing |
| RelatorioRoutes.StoreSubmission | app/routes/relatorio_routes.py:71-85 | after the checks: a refused upload stores nothing; otherwise a new file row owned by the contract with the upload's name, path, type and size, and a new report pointing at it, with the form's fields, the forced status and no analysis or approver remarks |
| RelatorioRoutes.SubmitUpToCascade | app/routes/relatorio_routes.py:46-85 | reaches the insert iff every check and the upload pass; otherwise the store is unchanged and the answer is the failed check's |
| RelatorioRoutes.SubmitHandler | app/routes/relatorio_routes.py:46-97 | intended behaviour, with the status lookup by name and the cascade call both fixed: 201 iff every check passes; the report's status is the 'Pendente de Análise' id whatever the client sent; the answered pendência, if it exists, becomes 'Concluída' and no other pendência changes; anything but 201 stores nothing |
| RelatorioRoutes.SubmitRelatorio | app/routes/relatorio_routes.py:46-48 | the gated route: 201 iff a fiscal or administrator token and an accepted submission |
| RelatorioRoutes.SubmitIgnoresClientStatus | app/routes/relatorio_routes.py:74-83 | the client's `status_id` has no influence on the outcome |
| RelatorioRoutes.SubmitHandlerAsWritten | app/routes/relatorio_routes.py:62-69 | as written: a submission never gets 201 and never changes the store; it gets 500 iff the form checks pass, and otherwise exactly the intended handler's answer |
| RelatorioRoutes.SubmitAsWrittenStoresNothing | app/routes/relatorio_routes.py:65 | every submission the intended route accepts with 201 gets 500 from the code as written, with nothing stored |
| RelatorioRoutes.SubmitCascadeAsWritten | app/routes/relatorio_routes.py:85-97 | with the lookup at line 65 fixed but the cascade call as written: never 201, and a rejected submission fails exactly as in the intended handler |
| RelatorioRoutes.SubmitCascadeStrandsReport | app/routes/relatorio_routes.py:85-97 | with the lookup fixed, an accepted submission gets 500 from the cascade as written while its report row is stored and the pendência table untouched; the intended handler answers 201 |
| Db.ContractSubject | app/routes/relatorio_routes.py:133 | a notice subject is its fixed text followed by the contract number as it prints, and nothing else; the reminder subject at scheduler.py:49 is built the same way |
| RelatorioRoutes.NotifyRejection | app/routes/relatorio_routes.py:124-144 | exactly one e-mail, to the report's fiscal, iff the new status is the rejection id and the fiscal and contract are active; otherwise nothing is sent; no table changes |
| RelatorioRoutes.AnalysisChecks | app/routes/relatorio_routes.py:103-116 | checks in order: 400 for a missing field, then 404 for an unknown report, an unknown or inactive approver, and a status id with no `statusrelatorio` row; passes iff all hold; a failure stores nothing |
| RelatorioRoutes.AnalisarHandler | app/routes/relatorio_routes.py:99-148 | intended behaviour, with the status lookup by name fixed: 400 for missing fields, then 404 for the report, the approver and an unknown status id, each with the store unchanged; 200 iff all pass, with the analysis stored and the updated row answered; when a rejection is notified the earlier messages are kept and exactly one is added, addressed to the report's fiscal, its subject ending with the contract number, its body naming the fiscal, the competency month, the contract number and the approver's remarks; otherwise the outbox is unchanged |
| RelatorioRoutes.AnalisarHandlerAsWritten | app/routes/relatorio_routes.py:118-148 | as written: never 200; a rejected analysis fails as in the intended handler; an accepted one gets 500 with the analysis committed to the tables and no e-mail sent |
| RelatorioRoutes.AnalisarAsWrittenCommitsThenFails | app/routes/relatorio_routes.py:120-124 | every analysis the intended route answers with 200 gets 500 as written, though the row already holds the new status, approver and analysis time |
| RelatorioRoutes.AnalisarRelatorio | app/routes/relatorio_routes.py:99-101 | the gated route: 200 iff an administrator token and an accepted analysis |
| RelatorioRoutes.NonRejectionSendsNothing | app/routes/relatorio_routes.py:124-127 | an approval, or any status other than the rejection one, sends no e-mail |
| RelatorioRoutes.ReenviarHandler | app/routes/relatorio_routes.py:150-183 | 404 for an unknown report; 400 on a refused upload, with nothing stored; 200 iff both pass, then a new file row owned by the URL's contract with the upload's name, path, type and size, every other file row unchanged, the report pointing at the new file with the new remarks, reset for analysis and with its identity kept |
| RelatorioRoutes.ReenviarRelatorio | app/routes/relatorio_routes.py:150-152 | the gated route: 200 iff a fiscal or administrator token, an existing report and a valid upload |
| RelatorioRoutes.ListRelatoriosAsWritten | app/routes/relatorio_routes.py:185-196 | as written: 404 iff the contract is not visible, otherwise 500 |
| RelatorioRoutes.ListRelatoriosHandler | app/routes/relatorio_routes.py:185-196 | intended behaviour: 404 iff the contract is not visible, otherwise 200 with exactly that contract's reports, newest first, each once when every row sits at its own id |
| RelatorioRoutes.ListRelatorios | app/routes/relatorio_routes.py:185-187 | the route behind `jwt_required`: 200 iff any valid token and a visible contract; read-only |
| RelatorioRoutes.ListRelatoriosAsWrittenFails | app/routes/relatorio_routes.py:193 | for every visible contract the code as written answers 500 where the intended call answers 200 |
| ContratoRepo.AllowListed | app/repository/contrato_repo.py:10-26 | keeps exactly the payload keys on the insert list, with their values |
| ContratoRepo.CreateContrato | app/repository/contrato_repo.py:5-43 | fails iff no allow-listed key is present; otherwise one new active row holding exactly the allow-listed keys and their values |
| ContratoRepo.FindContratoById | app/repository/contrato_repo.py:80-105 | found iff the row exists and is active |
| ContratoRepo.UpdateContrato | app/repository/contrato_repo.py:107-122 | an empty update is an error; an unknown id changes nothing; otherwise exactly the supplied columns are overwritten (a `null` stored as NULL), other columns and rows kept, with no active check; a body setting `id` is not modelled (see "## Left out") |
| ContratoRepo.DeleteContrato | app/repository/contrato_repo.py:124-135 | soft delete: the row stays with every column but `ativo`, which becomes false; nothing else changes |
| ContratoRepo.GetAllContratos | app/repository/contrato_repo.py:45-78 | lists exactly the active contracts matching every filter given; NULL `data_fim` first, then `data_fim` descending; when every row sits at its own id, each contract appears once |
| ContratoRoutes.FirstMissingField | app/routes/contrato_routes.py:18-21 | None iff every required field is present; otherwise the first absent field in list order |
| ContratoRoutes.CheckReferences | app/routes/contrato_routes.py:23-27 | passes iff every referenced id resolves to an existing row (active for contracted parties and users); otherwise the first failing reference decides: 404 with its message (also for a `null` id), or 500 when the value cannot be cast to `integer` |
| ContratoRoutes.UncheckedFieldIgnored | app/routes/contrato_routes.py:23-27 | a field no check names does not affect the checks |
| ContratoRoutes.RequiredCoversReferences | app/routes/contrato_routes.py:18-27 | every field the reference checks read is a required field |
| ContratoRoutes.SubstituteNotChecked | app/routes/contrato_routes.py:23-27 | `fiscal_substituto_id` is never looked up: any value gives the same checks |
| ContratoRoutes.NullReferenceNotFound | app/routes/contrato_routes.py:18-27 | a `null` reference id passes the presence check and, at the first reference it reaches, answers 404 with that reference's message rather than 500 |
| ContratoRoutes.CreateChecks | app/routes/contrato_routes.py:13-27 | checks in order: 400 for no data, 400 naming the first missing field, then the reference checks; passes iff all pass; a failure stores nothing |
| ContratoRoutes.PersistAndNotify | app/routes/contrato_routes.py:37-62 | the new contract is active and holds the allow-listed payload fields; exactly two e-mails are sent, to the gestor first and then the fiscal |
| ContratoRoutes.RecordDocument | app/routes/contrato_routes.py:72-76 | the new contract's `documento` becomes the file id, and 201 is answered with the updated row |
| ContratoRoutes.AttachDocument | app/routes/contrato_routes.py:64-76 | with no document, 201 with the contract as created; a refused document gives 400 with the contract kept; an allowed one adds a file row owned by the contract and records it in `documento` |
| ContratoRoutes.CreateStoresAndNotifies | app/routes/contrato_routes.py:34-76 | an accepted create stores an active contract with the payload's allow-listed fields and sends exactly two e-mails, the gestor's then the fiscal's |
| ContratoRoutes.CreateAnswer | app/routes/contrato_routes.py:64-80 | an accepted create answers 201 iff there is no document or an allowed one, else 400 with the contract stored; an attached document's id is recorded |
| ContratoRoutes.CreateHandler | app/routes/contrato_routes.py:10-80 | 201 only for accepted payloads; a rejected payload stores nothing and gets its check's answer |
| ContratoRoutes.CreateContrato | app/routes/contrato_routes.py:10-12 | the gated route: 201 only for an administrator with an accepted payload; without both, nothing is stored |
| ContratoRoutes.QueryFilters | app/routes/contrato_routes.py:86-87 | a filter is present iff its query argument was given, and it carries that text |
| ContratoRoutes.Listed | app/routes/contrato_routes.py:86-87 | reference for the listing: an active contract whose `gestor_id` and `fiscal_id` equal the numerals given, for each filter given |
| ContratoRoutes.QueryFiltersMatch | app/routes/contrato_routes.py:86-88 | with numeric filters, the repository's filter match on the query's filters is exactly `Listed` |
| ContratoRoutes.ListAll | app/routes/contrato_routes.py:83-89 | 500 iff a given filter is not a numeral within `integer`'s range; otherwise 200 listing exactly the contracts `Listed` admits (all of them in a well-formed table), in `data_fim` order, each once when every row sits at its own id; read-only |
| ContratoRoutes.ListContratos | app/routes/contrato_routes.py:83-85 | the route behind `jwt_required`: 200 iff any valid token and numeric filters |
| ContratoRoutes.ListByGestor | app/routes/contrato_routes.py:86-88 | listing by a manager's id within `integer`'s range returns every active contract of that manager and no other; a larger id gives 500 |
| ContratoRoutes.GetByIdAsWritten | app/routes/contrato_routes.py:91-104 | as written: 404 iff the contract is not visible, otherwise 500 |
| ContratoRoutes.GetByIdHandler | app/routes/contrato_routes.py:91-104 | intended behaviour: 404 iff the contract is not visible, otherwise 200 with the stored row and exactly that contract's reports, newest first, each once when every row sits at its own id |
| ContratoRoutes.GetContrato | app/routes/contrato_routes.py:91-93 | the route behind `jwt_required`: 200 iff any valid token and a visible contract |
| ContratoRoutes.UpdateHandler | app/routes/contrato_routes.py:106-116 | an empty body gives 400; a missing or soft-deleted contract gives 404; 200 iff neither, and then the row becomes the old columns overridden by the body; a body setting `id` is not modelled (see "## Left out") |
| ContratoRoutes.UpdateNullClears | app/repository/contrato_repo.py:107-112 | a `null` in the update body answers 200 and leaves the column NULL in the stored row |
| ContratoRoutes.UpdateContrato | app/routes/contrato_routes.py:106-108 | the gated route: 200 iff an administrator, a non-empty body and a visible contract |
| ContratoRoutes.DeleteHandler | app/routes/contrato_routes.py:118-123 | 204 iff the contract is visible, and then the soft delete; otherwise 404 with nothing changed |
| ContratoRoutes.DeleteContrato | app/routes/contrato_routes.py:118-120 | the gated route: 204 iff an administrator and a visible contract |
| ContratoRoutes.DeletedContractHidden | app/routes/contrato_routes.py:118-123 | after a delete the row remains but the finder, the read route, the listing, a second delete and an update that tries to reactivate it all treat it as absent |
| Db.SendEmail | app/email_utils.py:10-41 | a send appends exactly one message to the outbox and changes no table |
| Scheduler.PrazoText | scheduler.py:51-57 | 0 days reads "expira HOJE"; n > 0 days reads "expira em n dia(s)" |
| Scheduler.PrimaryFiscal | scheduler.py:30-33 | the recipient is the user the contract's `fiscal_id` names; neither the contract nor the user needs to be active |
| Scheduler.ReminderFor | scheduler.py:41-69 | a reminder iff the pendência is 'Pendente', has a fiscal and is exactly 15, 5, 3 or 0 days from its deadline; it goes to that fiscal with the deadline text |
| Scheduler.DueIndices | scheduler.py:41-57 | reference for a run: the positions of the due rows, strictly ascending, so each due row is named once and no other row |
| Scheduler.Sweep | scheduler.py:41-69 | the k-th reminder is the reminder of the k-th due row, and there are exactly as many reminders as due rows: one per due row, in row order, nothing else |
| Scheduler.SweepSendsDueRow | scheduler.py:41-69 | a due row's reminder is among those the loop sends |
| Scheduler.SweepSound | scheduler.py:25-69 | every reminder of a run comes from a due pendência stored in the table, and a run sends no more reminders than the table has rows |
| Scheduler.SweepComplete | scheduler.py:25-69 | every due pendência of the table gets its reminder |
| Scheduler.DueReminders | scheduler.py:25-69 | a run's reminders are one per due pendência of the table, in id order, the k-th being the k-th due pendência's reminder, and nothing else |
| Scheduler.CheckDeadlines | scheduler.py:10-76 | no table changes; the outbox keeps its messages and grows by exactly one message per due pendência, the k-th new message being the k-th due pendência's reminder |
| Scheduler.ReminderDays | scheduler.py:46-57 | for a 'Pendente' pendência with a fiscal, a reminder goes out iff the deadline is 15, 5, 3 or 0 days away; never once it is overdue |
| Scheduler.OnlyPendente | scheduler.py:31-34 | a concluded or cancelled pendência is never reminded about |
| Scheduler.SubstituteNeverReminded | scheduler.py:32-33 | the substitute fiscal's id has no effect on any reminder |
| Seeder.InsertAll | app/seeder.py:32-33 | the names land on consecutive new ids in list order; earlier rows kept |
| Seeder.SeedTable | app/seeder.py:27-35 | a table with rows is left as is; an empty one receives exactly the names in order |
| Seeder.SeedLookups | app/seeder.py:38-42 | each of the five lookup tables is seeded with its own list and nothing else changes |
| Seeder.SeedData | app/seeder.py:20-74 | the administrator is created only when no user has the e-mail, with the 'Administrador' perfil; when the password is unset or that perfil is missing, everything rolls back, the lookup tables included; after any run that changed the store, the e-mail is taken |
| Seeder.SeedIdempotent | app/seeder.py:20-74 | seeding twice gives the same store as seeding once |
| Seeder.PopulatedTableUntouched | app/seeder.py:29-35 | a lookup table with any row is never changed, even if it lacks some names |
| Seeder.FreshTableLookup | app/seeder.py:27-35 | in a freshly seeded table, name number k of the list is found at id k + 1 |
| Seeder.FreshSeedStatusIds | app/repository/relatorio_repo.py:58-59 | on a fresh database whose run commits (the e-mail is taken or a password is set), 'Pendente de Análise' gets id 1, the id the resubmission writes, and 'Concluída' gets id 2 |
| Seeder.FreshSeedAdmin | app/seeder.py:53-63 | on a fresh perfil table, with a password set, the administrator gets perfil id 1 and the configured e-mail |
| Seeder.UnsetPasswordSeedsNothing | app/seeder.py:50-51 | with `ADMIN_PASSWORD` unset, hashing it raises and the handler at :70-71 rolls back, so an empty database stays empty |

## Left out

- Disk I/O of uploads: `secure_filename`, the save, reading the size back, and removing the file after a failure. The stored name, path, MIME type and size are inputs. A removed file is not visible in the store.
- JSON and form parsing: bodies are typed records or value maps. A body that is not JSON (`request.get_json()` returning None, then `in` on None) is not modelled. Form values of the report routes arrive already typed. Contract bodies are value maps, and JSON `null` in them is the value `Null`. The typed records of the pendência and analysis bodies hold a field as absent or as a value, never as `null`. In the source a `null` id there passes the presence check and then fails its lookup with 404, and a `null` in another field reaches the insert as NULL.
- Lookups.AsId: accepts only unsigned ASCII digits up to 2147483647, because PostgreSQL's sign and surrounding whitespace in integer input are not modelled. A JSON number beyond `integer` is compared as it is, which PostgreSQL does without error; storing such a number fails in PostgreSQL, and that schema constraint is not modelled (see below).
- Foreign-key, NOT NULL and type constraints of the schema. Only the checks the code makes are modelled. An insert the database would reject for a dangling id is not. The same holds for an update key that names no column; such an update is not an SQL error here.
- Column projections and joined names of the list queries (`contratado_nome`, `status_nome`, `enviado_por`, ...). Listings return whole rows.
- Exact e-mail bodies and date formatting (`strftime`). Bodies are kept as the interpolated fields. Subjects are stated by the contract number they end with.
- Timestamps: `now()`, `created_at` defaults and `date.today()` are parameters. The order among reports with equal `created_at` is not stated.
- The cron trigger, time zone and process setup of `scheduler.py`, and the exception handler that prints and swallows errors. The sweep is one call of `CheckDeadlines`.
- Concurrency between requests and transactions spanning routes. Each route is one atomic step.
- `status_relatorio_repo.find_statusrelatorio_by_name` does not exist in the repository. The intended routes use `RelatorioRoutes.FindStatusRelatorioByName`, written like `find_statuspendencia_by_name`; the code as written is modelled by the as-written members under "## Findings".
- Authentication (`auth_routes.py`), token issue, password handling, and the plain CRUD of users, contracted parties, profiles, modalities, statuses and files. This includes `list_contract_files`. Only their finders, which the workflow consults, are modelled.
- Lookups.FindIdByName: the lookups by name (`find_statuspendencia_by_name`, the seeder's perfil lookup, and the intended report-status lookup) use `fetchone()` with no `ORDER BY`. With duplicate names PostgreSQL may return any matching row. Returning the lowest id is the model's choice.
- Seeder.SeedData: an unset `ADMIN_EMAIL` is not modelled; the e-mail is a string. In the source `email = NULL` matches no row, so every run tries to insert another administrator with a NULL e-mail. Whether that insert succeeds depends on the `usuario` schema, which is not part of the repository. `Seeder.SeedIdempotent` is stated for a configured e-mail.
- Scheduler.DueReminders: the sweep's query has no `ORDER BY`, so the database may return the rows in any order. The run is taken over the rows in id order. `Scheduler.Sweep` is stated for any row sequence.
- Listings: "each row appears once" is stated when every row's id equals its key (`Db.Keyed`). Every create, update and delete of the model preserves that.
- ContratoRepo.CreateContrato: values are stored as they arrive. Date columns are taken to arrive as integer day numbers and `ativo` as a boolean. PostgreSQL's casts from text to date or boolean are not modelled, so a text date would sort as NULL in `ContratoRepo.GetAllContratos`.
- ContratoRepo.UpdateContrato: the same holds; `{"ativo": "true"}` stores a text value, which the model's active check does not treat as true, whereas PostgreSQL would cast it.
- ContratoRepo.UpdateContrato: a body with the key `id` is not modelled. PostgreSQL's `SET id = %s` moves the row to the new id, or fails when that id is taken or is no integer. The model keeps the row under its old key and stores `id` as an ordinary column. A moved row could sit above the table's sequence, and the model's tables and listings only hold ids the sequence handed out.
- ContratoRoutes.UpdateHandler: the same `id` case is not modelled. The source answers 200 with the row moved, so `GET /contratos/<old id>` becomes 404, or 500 when the new id is taken. The model answers 200 with the row left in place.
- ContratoRoutes.CreateHandler: its contract states the routing. What the insert and the document step store is stated by `ContratoRoutes.CreateStoresAndNotifies` and `ContratoRoutes.CreateAnswer`.
- SQL failures inside a statement that passed the code's checks (the generic 500 handlers of the routes) are not modelled, apart from the uncastable ids.

## Findings

| source | as written | input that shows it | evidently intended | confidence | as-written member | corrected member |
|---|---|---|---|---|---|---|
| app/routes/relatorio_routes.py:65 | calls `status_relatorio_repo.find_statusrelatorio_by_name`, which `app/repository/status_relatorio_repo.py` does not define; the `AttributeError` reaches the generic handler, so every submission that passes the form checks gets 500 and nothing is stored | any submission with a visible contract, `pendencia_id`, `mes_competencia` and `fiscal_usuario_id` | 201, with the report stored under the 'Pendente de Análise' id | high; not executed | RelatorioRoutes.SubmitHandlerAsWritten | RelatorioRoutes.SubmitHandler |
| app/routes/relatorio_routes.py:88 | reached only once line 65 is fixed: calls `pendencia_repo.update_pendencia_status`, which `pendencia_repo` does not define (it is in `status_pendencia_repo`); the `AttributeError` becomes 500 after the file and report rows are committed, and the pendência stays open | with line 65 fixed, any submission passing every check: visible contract, `pendencia_id`, `mes_competencia`, `fiscal_usuario_id`, both default statuses seeded, allowed file | 201, with the answered pendência set to 'Concluída' | high; not executed | RelatorioRoutes.SubmitCascadeAsWritten | RelatorioRoutes.SubmitHandler |
| app/routes/relatorio_routes.py:124 | calls `status_relatorio_repo.find_statusrelatorio_by_name` after `analise_relatorio` has committed; the `AttributeError` becomes 500, with the analysis stored and no rejection e-mail | `PATCH .../relatorios/1/analise` with an active approver and an existing status id, for an existing report 1 | 200 with the updated report, and the rejection e-mail when the status is 'Rejeitado com Pendência' | high; not executed | RelatorioRoutes.AnalisarHandlerAsWritten | RelatorioRoutes.AnalisarHandler |
| app/routes/relatorio_routes.py:193 | calls `relatorio_repo.get_relatorios_by_contrato_id`; the repository defines `find_relatorios_by_contrato_id`, so the route answers 500 | `GET /contratos/1/relatorios` for an active contract 1 | 200 with the contract's reports, newest first | high; not executed | RelatorioRoutes.ListRelatoriosAsWritten | RelatorioRoutes.ListRelatoriosHandler |
| app/routes/contrato_routes.py:99 | the same missing name, called outside any `try`, so Flask answers 500 | `GET /contratos/1` for an active contract 1 | 200 with the contract and its `relatorios_fiscais` | high; not executed | ContratoRoutes.GetByIdAsWritten | ContratoRoutes.GetByIdHandler |

=== FILE: auth_decorators.dfy ===
/**
 * The role gates wrapped around the workflow routes. The role is the
 * `perfil` claim embedded in the token at login; no database lookup happens.
 */
module AuthDecorators {
  import opened Wrappers
  import opened Db
  import opened Http

  /** The request's token as `jwt_required` sees it: absent or invalid, or verified with its claims. */
  datatype Token = NoToken | Claims(perfil: Option<string>)

  /** `claims.get("perfil") != "Administrador"` rejects. */
  predicate AdminAdmits(perfil: Option<string>) {
    perfil == Some("Administrador")
  }

  /** `claims.get("perfil") not in ["Fiscal", "Administrador"]` rejects. */
  predicate FiscalAdmits(perfil: Option<string>) {
    perfil.Some? && perfil.value in ["Fiscal", "Administrador"]
  }

  /** `jwt_required` answers 401 before the role check when no valid token is present. */
  function Unauthorized(db: Store): Outcome {
    Outcome(Reply(401, Error("Missing Authorization Header")), db)
  }

  /** `jwt_required()` on its own: any valid token passes, whatever its claims. */
  function JwtRequired(token: Token, db: Store, handled: Outcome): (r: Outcome)
    ensures token.NoToken? ==> r.reply.code == 401 && r.db == db
    ensures token.Claims? ==> r == handled
  {
    match token
    case NoToken => Unauthorized(db)
    case Claims(_) => handled
  }

  /** `admin_required()` applied to a handler whose outcome on this request is `handled`. */
  function AdminRequired(token: Token, db: Store, handled: Outcome): (r: Outcome)
    ensures token.NoToken? ==> r.reply.code == 401 && r.db == db
    ensures token.Claims? && !AdminAdmits(token.perfil) ==> r.reply.code == 403 && r.db == db
    ensures token.Claims? && AdminAdmits(token.perfil) ==> r == handled
  {
    match token
    case NoToken => Unauthorized(db)
    case Claims(perfil) =>
      if !AdminAdmits(perfil) then Fail(db, 403, "Acesso restrito a administradores")
      else handled
  }

  /** `fiscal_required()` applied to a handler whose outcome on this request is `handled`. */
  function FiscalRequired(token: Token, db: Store, handled: Outcome): (r: Outcome)
    ensures token.NoToken? ==> r.reply.code == 401 && r.db == db
    ensures token.Claims? && !FiscalAdmits(token.perfil) ==> r.reply.code == 403 && r.db == db
    ensures token.Claims? && FiscalAdmits(token.perfil) ==> r == handled
  {
    match token
    case NoToken => Unauthorized(db)
    case Claims(perfil) =>
      if !FiscalAdmits(perfil) then Fail(db, 403, "Acesso restrito a fiscais e administradores")
      else handled
  }

  /** The fiscal gate admits exactly the two named profiles. */
  lemma FiscalAdmitsExactly(perfil: Option<string>)
    ensures FiscalAdmits(perfil) <==> perfil == Some("Fiscal") || perfil == Some("Administrador")
  {
  }

  /** Every token the admin gate lets through, the fiscal gate lets through too. */
  lemma AdminImpliesFiscal(perfil: Option<string>, db: Store, handled: Outcome)
    requires AdminAdmits(perfil)
    ensures FiscalAdmits(perfil)
    ensures FiscalRequired(Claims(perfil), db, handled) == AdminRequired(Claims(perfil), db, handled)
  {
  }

  /** A manager, or a token without a `perfil` claim, is refused by both gates. */
  lemma GestorAndMissingClaimRejected(perfil: Option<string>, db: Store, handled: Outcome)
    requires perfil == Some("Gestor") || perfil.None?
    ensures AdminRequired(Claims(perfil), db, handled).reply.code == 403
    ensures FiscalRequired(Claims(perfil), db, handled).reply.code == 403
    ensures AdminRequired(Claims(perfil), db, handled).db == db
    ensures FiscalRequired(Claims(perfil), db, handled).db == db
  {
  }

  /** A fiscal passes the fiscal gate but not the admin gate. */
  lemma FiscalIsNotAdmin(db: Store, handled: Outcome)
    ensures FiscalRequired(Claims(Some("Fiscal")), db, handled) == handled
    ensures AdminRequired(Claims(Some("Fiscal")), db, handled).reply.code == 403
  {
  }
}

=== FILE: contrato_repo.dfy ===
/**
 * Contract persistence: the allow-listed insert, the active-only reads, the
 * conjunctive list filters and the soft delete.
 */
module ContratoRepo {
  import opened Wrappers
  import opened Db
  import Sorting
  import Lookups

  /** The columns `create_contrato` will insert, in its order. */
  const InsertableFields: seq<string> := [
    "nr_contrato", "objeto", "valor_anual", "valor_global", "base_legal",
    "data_inicio", "data_fim", "termos_contratuais", "contratado_id",
    "modalidade_id", "status_id", "gestor_id", "fiscal_id",
    "fiscal_substituto_id", "pae", "doe", "data_doe", "documento"]

  /** `ativo` is left to its column default: no payload value reaches it. */
  lemma AtivoNotInsertable()
    ensures "ativo" !in InsertableFields
  {
    forall i | 0 <= i < |InsertableFields| ensures InsertableFields[i] != "ativo" {
      assert InsertableFields[i][0] != 'a';
    }
  }

  /** A contract is visible iff its `ativo` column is TRUE. */
  predicate IsActive(c: Contrato) {
    "ativo" in c.cols && c.cols["ativo"] == Bool(true)
  }

  /** The part of a payload `create_contrato` keeps: allow-listed keys only. */
  function AllowListed(data: map<string, Value>): (r: map<string, Value>)
    ensures r.Keys == data.Keys * set f | f in InsertableFields
    ensures forall k :: k in r ==> r[k] == data[k]
  {
    map k | k in data && k in InsertableFields :: data[k]
  }

  /**
   * `create_contrato`: inserts the allow-listed keys present in `data`; the
   * row is active by the column default. With no such key the generated
   * `INSERT INTO contrato () ...` is a syntax error.
   */
  function CreateContrato(db: Store, data: map<string, Value>): (r: Result<(Contrato, Store)>)
    ensures r.Err? <==> AllowListed(data) == map[]
    ensures r.Ok? ==>
      var (c, db') := r.value;
      && c.cols.Keys == AllowListed(data).Keys + {"ativo"}
      && (forall k :: k in data && k in InsertableFields ==> c.cols[k] == data[k])
      && IsActive(c)
      && c.id == db.contratos.nextId
      && (TableValid(db.contratos) ==> c.id !in db.contratos.rows)
      && (Keyed(db.contratos, ContratoPk) ==> Keyed(db'.contratos, ContratoPk))
      && db'.contratos.rows == db.contratos.rows[c.id := c]
      && db'.contratos.nextId == db.contratos.nextId + 1
      && db'.(contratos := db.contratos) == db
  {
    var kept := AllowListed(data);
    if kept == map[] then Err("syntax error at or near \")\"")
    else
      var c := Contrato(db.contratos.nextId, kept["ativo" := Bool(true)]);
      AtivoNotInsertable();
      var (_, t) := Insert(db.contratos, c);
      Ok((c, db.(contratos := t)))
  }

  /** `find_contrato_by_id`: a missing or soft-deleted contract reads as None. */
  function FindContratoById(db: Store, id: int): (r: Option<Contrato>)
    ensures r.Some? <==> id >= 0 && id as nat in db.contratos.rows && IsActive(db.contratos.rows[id as nat])
    ensures r.Some? ==> r.value == db.contratos.rows[id as nat]
  {
    match Get(db.contratos, id)
    case Some(c) => if IsActive(c) then Some(c) else None
    case None => None
  }

  /**
   * `update_contrato`: `SET k = v` for exactly the keys supplied, with no
   * `ativo` filter. An empty key list is an SQL syntax error; an unknown id
   * updates nothing and returns None.
   */
  function UpdateContrato(db: Store, id: int, data: map<string, Value>): (r: Result<(Option<Contrato>, Store)>)
    ensures r.Err? <==> data == map[]
    ensures r.Ok? && r.value.0.None? ==> r.value.1 == db && !(id >= 0 && id as nat in db.contratos.rows)
    ensures r.Ok? && r.value.0.Some? ==>
      var (c, db') := (r.value.0.value, r.value.1);
      && id >= 0 && id as nat in db.contratos.rows
      && c.id == db.contratos.rows[id as nat].id
      && c.cols.Keys == db.contratos.rows[id as nat].cols.Keys + data.Keys
      && (forall k :: k in data ==> c.cols[k] == data[k])
      && (forall k :: k in c.cols && k !in data ==> c.cols[k] == db.contratos.rows[id as nat].cols[k])
      && db'.contratos.rows == db.contratos.rows[id as nat := c]
      && db'.contratos.nextId == db.contratos.nextId
      && (Keyed(db.contratos, ContratoPk) ==> Keyed(db'.contratos, ContratoPk))
      && db'.(contratos := db.contratos) == db
  {
    if data == map[] then Err("syntax error at or near \"WHERE\"")
    else
      match Get(db.contratos, id)
      case None => Ok((None, db))
      case Some(c) =>
        var c' := c.(cols := c.cols + data);
        Ok((Some(c'), db.(contratos := db.contratos.(rows := db.contratos.rows[id as nat := c']))))
  }

  /** `delete_contrato`: a soft delete that only flips `ativo` to FALSE; the row stays. */
  function DeleteContrato(db: Store, id: int): (r: Store)
    ensures r.(contratos := db.contratos) == db
    ensures r.contratos.rows.Keys == db.contratos.rows.Keys
    ensures r.contratos.nextId == db.contratos.nextId
    ensures Keyed(db.contratos, ContratoPk) ==> Keyed(r.contratos, ContratoPk)
    ensures forall k :: k in db.contratos.rows && k != id ==> r.contratos.rows[k] == db.contratos.rows[k]
    ensures id >= 0 && id as nat in db.contratos.rows ==>
      var c := db.contratos.rows[id as nat];
      var c' := r.contratos.rows[id as nat];
      && !IsActive(c')
      && c'.id == c.id
      && c'.cols.Keys == c.cols.Keys + {"ativo"}
      && (forall k :: k in c.cols && k != "ativo" ==> c'.cols[k] == c.cols[k])
  {
    match Get(db.contratos, id)
    case None => db
    case Some(c) =>
      db.(contratos := db.contratos.(rows := db.contratos.rows[id as nat := c.(cols := c.cols["ativo" := Bool(false)])]))
  }

  // ----- listing -----

  /**
   * Column `col` is non-NULL and equal to `v`, as `c.col = %s` requires; both
   * sides are integer ids, so a query-string value is compared after the cast.
   */
  predicate ColumnIs(c: Contrato, col: string, v: Value) {
    col in c.cols && Lookups.AsId(c.cols[col]).Ok? && Lookups.AsId(v) == Lookups.AsId(c.cols[col])
  }

  /** The `WHERE` of `get_all_contratos`: always active, then each supplied filter, conjunctively. */
  predicate MatchesFilters(c: Contrato, filters: map<string, Value>) {
    && IsActive(c)
    && ("gestor_id" in filters ==> ColumnIs(c, "gestor_id", filters["gestor_id"]))
    && ("fiscal_id" in filters ==> ColumnIs(c, "fiscal_id", filters["fiscal_id"]))
  }

  /** `data_fim` as a day number, or None where it is NULL (a non-date is not modelled as a date). */
  predicate HasDataFim(c: Contrato) {
    "data_fim" in c.cols && c.cols["data_fim"].Int?
  }

  /** Sort key of `ORDER BY data_fim DESC`: larger dates first. */
  function DataFimDescKey(c: Contrato): int {
    if HasDataFim(c) then -c.cols["data_fim"].i else 0
  }

  /**
   * `a` may precede `b` under `ORDER BY data_fim DESC`; PostgreSQL sorts NULL
   * above every value, so NULLs come first in descending order.
   */
  predicate DataFimDescBefore(a: Contrato, b: Contrato) {
    !HasDataFim(a) || (HasDataFim(b) && a.cols["data_fim"].i >= b.cols["data_fim"].i)
  }

  predicate OrderedByDataFimDesc(s: seq<Contrato>) {
    forall i, j :: 0 <= i < j < |s| ==> DataFimDescBefore(s[i], s[j])
  }

  /** `get_all_contratos(filters)`: the matching active contracts, `data_fim` descending. */
  function GetAllContratos(db: Store, filters: map<string, Value>): (r: seq<Contrato>)
    ensures forall i :: 0 <= i < |r| ==> MatchesFilters(r[i], filters) && r[i] in db.contratos.rows.Values
    ensures TableValid(db.contratos) ==>
      forall k :: k in db.contratos.rows && MatchesFilters(db.contratos.rows[k], filters) ==> db.contratos.rows[k] in r
    ensures OrderedByDataFimDesc(r)
    ensures Keyed(db.contratos, ContratoPk) ==> forall i, j :: 0 <= i < j < |r| ==> r[i].id != r[j].id
  {
    var rows := Rows(db.contratos);
    var undated := (c: Contrato) => MatchesFilters(c, filters) && !HasDataFim(c);
    var withDate := (c: Contrato) => MatchesFilters(c, filters) && HasDataFim(c);
    var nulls := Sorting.Filter(rows, undated);
    var dated := Sorting.Filter(rows, withDate);
    var sorted := Sorting.SortByKey(dated, DataFimDescKey);
    Sorting.SortKeepsProperty(dated, DataFimDescKey, withDate);
    ConcatOrdered(nulls, sorted);
    ListingMembers(db, filters, rows, nulls, dated, sorted);
    assert Keyed(db.contratos, ContratoPk) ==> Sorting.DistinctBy(nulls + sorted, ContratoPk) by {
      if Keyed(db.contratos, ContratoPk) {
        RowsDistinct(db.contratos, ContratoPk);
        Sorting.FilterKeepsDistinct(rows, undated, ContratoPk);
        Sorting.FilterThenSortDistinct(rows, withDate, DataFimDescKey, ContratoPk);
        ListingDistinct(rows, nulls, dated, sorted);
      }
    }
    nulls + sorted
  }

  /** The undated and the dated part come from one keyed read and split on `data_fim`, so no row repeats. */
  lemma ListingDistinct(rows: seq<Contrato>, nulls: seq<Contrato>, dated: seq<Contrato>, sorted: seq<Contrato>)
    requires Sorting.DistinctBy(rows, ContratoPk)
    requires Sorting.DistinctBy(nulls, ContratoPk) && Sorting.DistinctBy(sorted, ContratoPk)
    requires forall i :: 0 <= i < |nulls| ==> nulls[i] in rows && !HasDataFim(nulls[i])
    requires forall i :: 0 <= i < |dated| ==> dated[i] in rows
    requires forall i :: 0 <= i < |sorted| ==> sorted[i] in dated && HasDataFim(sorted[i])
    ensures Sorting.DistinctBy(nulls + sorted, ContratoPk)
  {
    var s := nulls + sorted;
    forall i, j | 0 <= i < j < |s| ensures ContratoPk(s[i]) != ContratoPk(s[j]) {
      if j < |nulls| {
        assert s[i] == nulls[i] && s[j] == nulls[j];
      } else if i >= |nulls| {
        assert s[i] == sorted[i - |nulls|] && s[j] == sorted[j - |nulls|];
      } else {
        var d :| 0 <= d < |dated| && dated[d] == sorted[j - |nulls|];
        var a :| 0 <= a < |rows| && rows[a] == nulls[i];
        var b :| 0 <= b < |rows| && rows[b] == dated[d];
        assert a != b;
      }
    }
  }

  lemma ListingMembers(db: Store, filters: map<string, Value>, rows: seq<Contrato>,
                       nulls: seq<Contrato>, dated: seq<Contrato>, sorted: seq<Contrato>)
    requires rows == Rows(db.contratos)
    requires forall i :: 0 <= i < |nulls| ==> nulls[i] in rows && MatchesFilters(nulls[i], filters)
    requires forall i :: 0 <= i < |sorted| ==> sorted[i] in dated && MatchesFilters(sorted[i], filters)
    requires forall i :: 0 <= i < |dated| ==> dated[i] in rows
    requires forall i :: 0 <= i < |rows| && MatchesFilters(rows[i], filters) && !HasDataFim(rows[i]) ==> rows[i] in nulls
    requires forall i :: 0 <= i < |rows| && MatchesFilters(rows[i], filters) && HasDataFim(rows[i]) ==> rows[i] in dated
    requires forall c :: c in dated ==> c in sorted
    ensures forall i :: 0 <= i < |nulls + sorted| ==>
      MatchesFilters((nulls + sorted)[i], filters) && (nulls + sorted)[i] in db.contratos.rows.Values
    ensures TableValid(db.contratos) ==>
      forall k :: k in db.contratos.rows && MatchesFilters(db.contratos.rows[k], filters) ==> db.contratos.rows[k] in nulls + sorted
  {
    if TableValid(db.contratos) {
      forall k | k in db.contratos.rows && MatchesFilters(db.contratos.rows[k], filters)
        ensures db.contratos.rows[k] in nulls + sorted
      {
        var c := db.contratos.rows[k];
        assert c in rows;
        var i :| 0 <= i < |rows| && rows[i] == c;
      }
    }
  }

  /** NULL-dated rows followed by dated rows sorted descending form a descending listing. */
  lemma ConcatOrdered(nulls: seq<Contrato>, sorted: seq<Contrato>)
    requires forall i :: 0 <= i < |nulls| ==> !HasDataFim(nulls[i])
    requires forall i :: 0 <= i < |sorted| ==> HasDataFim(sorted[i])
    requires Sorting.SortedBy(sorted, DataFimDescKey)
    ensures OrderedByDataFimDesc(nulls + sorted)
  {
    var s := nulls + sorted;
    forall i, j | 0 <= i < j < |s| ensures DataFimDescBefore(s[i], s[j]) {
      if j >= |nulls| && i >= |nulls| {
        assert s[i] == sorted[i - |nulls|] && s[j] == sorted[j - |nulls|];
        assert DataFimDescKey(s[i]) <= DataFimDescKey(s[j]);
      }
    }
  }
}

=== FILE: contrato_routes.dfy ===
/**
 * The contract endpoints under `/contratos`: creation with its reference
 * checks, designation e-mails and optional document, the filtered listing,
 * the partial update, and the soft delete. All but the listing are for
 * administrators.
 */
module ContratoRoutes {
  import opened Wrappers
  import opened Db
  import opened Http
  import Lookups
  import Text
  import AuthDecorators
  import ContratoRepo
  import RelatorioRepo
  import RelatorioRoutes

  /** The fields a new contract must carry, in the order they are checked. */
  const RequiredFields: seq<string> := [
    "nr_contrato", "objeto", "data_inicio", "data_fim", "contratado_id",
    "modalidade_id", "status_id", "gestor_id", "fiscal_id"]

  const NenhumDado: string := "Nenhum dado enviado"
  const SemDadosParaAtualizar: string := "Dados para atualização não fornecidos"
  const ContratoNaoEncontrado: string := "Contrato não encontrado"
  /** Flask's answer to an exception the view does not catch. */
  const InternalServerError: string := "Internal Server Error"
  const GestorSubject: string := "Você foi designado como Gestor de um novo contrato"
  const FiscalSubject: string := "Você foi designado como Fiscal de um novo contrato"
  const DocumentKey: string := "documento_contrato"

  /** The first of `fields` absent from `data`, scanning in order. */
  function FirstMissingField(data: map<string, Value>, fields: seq<string>): (r: Option<string>)
    ensures r.None? <==> forall i :: 0 <= i < |fields| ==> fields[i] in data
    ensures r.Some? ==> exists i :: 0 <= i < |fields| && fields[i] == r.value && r.value !in data
                                    && forall j :: 0 <= j < i ==> fields[j] in data
  {
    if |fields| == 0 then None
    else if fields[0] !in data then Some(fields[0])
    else
      var r := FirstMissingField(data, fields[1..]);
      if r.Some? then
        var i :| 0 <= i < |fields[1..]| && fields[1..][i] == r.value && r.value !in data
                 && forall j :: 0 <= j < i ==> fields[1..][j] in data;
        assert fields[i + 1] == r.value;
        r
      else r
  }

  // ----- reference checks -----

  /** Which finder a referenced id goes through. */
  datatype RefKind = ContratadoRef | ModalidadeRef | StatusRef | UsuarioRef

  /** A payload field holding an id, and the message when it names nothing. */
  datatype Reference = Reference(field: string, kind: RefKind, notFound: string)

  /** The existence checks of `create`, in source order; `fiscal_substituto_id` is not among them. */
  const References: seq<Reference> := [
    Reference("contratado_id", ContratadoRef, "Contratado não encontrado"),
    Reference("modalidade_id", ModalidadeRef, "Modalidade não encontrada"),
    Reference("status_id", StatusRef, "Status não encontrado"),
    Reference("gestor_id", UsuarioRef, "Gestor não encontrado"),
    Reference("fiscal_id", UsuarioRef, "Fiscal não encontrado")]

  /**
   * The finder of each kind: contracted parties and users must be active,
   * modalities and contract statuses only exist.
   */
  predicate Found(db: Store, kind: RefKind, id: int) {
    match kind
    case ContratadoRef => Lookups.FindContratadoById(db, id).Some?
    case ModalidadeRef => Get(db.modalidades, id).Some?
    case StatusRef => Get(db.statusContrato, id).Some?
    case UsuarioRef => Lookups.FindUserById(db, id).Some?
  }

  /** The field's value casts to an id that the finder finds. */
  predicate Resolves(db: Store, ref: Reference, data: map<string, Value>)
    requires ref.field in data
  {
    Lookups.AsId(data[ref.field]).Ok? && Found(db, ref.kind, Lookups.AsId(data[ref.field]).value)
  }

  /**
   * A failed check: an id the query cannot cast raises outside the view's
   * `try` (500); a missing row, or a `null` id that matches none, is 404.
   */
  function RefFailure(db: Store, ref: Reference, data: map<string, Value>): Outcome
    requires ref.field in data
  {
    if Lookups.Raises(data[ref.field]) then Fail(db, 500, InternalServerError) else Fail(db, 404, ref.notFound)
  }

  /** The first reference in `refs` that does not resolve decides the answer; None when all resolve. */
  function CheckReferences(db: Store, data: map<string, Value>, refs: seq<Reference>): (r: Option<Outcome>)
    requires forall i :: 0 <= i < |refs| ==> refs[i].field in data
    ensures r.None? <==> forall i :: 0 <= i < |refs| ==> Resolves(db, refs[i], data)
    ensures r.Some? ==> r.value.db == db
    ensures r.Some? ==> exists i :: 0 <= i < |refs| && !Resolves(db, refs[i], data)
                                    && (forall j :: 0 <= j < i ==> Resolves(db, refs[j], data))
                                    && r.value == RefFailure(db, refs[i], data)
  {
    if |refs| == 0 then None
    else if !Resolves(db, refs[0], data) then Some(RefFailure(db, refs[0], data))
    else
      var r := CheckReferences(db, data, refs[1..]);
      if r.Some? then
        var i :| 0 <= i < |refs[1..]| && !Resolves(db, refs[1..][i], data)
                 && (forall j :: 0 <= j < i ==> Resolves(db, refs[1..][j], data))
                 && r.value == RefFailure(db, refs[1..][i], data);
        assert refs[i + 1] == refs[1..][i];
        r
      else r
  }

  /** A field no reference names has no influence on the checks. */
  lemma {:induction false} UncheckedFieldIgnored(db: Store, data: map<string, Value>, refs: seq<Reference>, k: string, v: Value)
    requires forall i :: 0 <= i < |refs| ==> refs[i].field in data && refs[i].field != k
    ensures CheckReferences(db, data[k := v], refs) == CheckReferences(db, data, refs)
  {
    if |refs| > 0 {
      assert data[k := v][refs[0].field] == data[refs[0].field];
      UncheckedFieldIgnored(db, data, refs[1..], k, v);
    }
  }

  /** Every referenced field is a required one, so it is present once the field check passed. */
  lemma RequiredCoversReferences(data: map<string, Value>)
    requires forall i :: 0 <= i < |RequiredFields| ==> RequiredFields[i] in data
    ensures forall i :: 0 <= i < |References| ==> References[i].field in data
  {
    assert References[0].field == RequiredFields[4];
    assert References[1].field == RequiredFields[5];
    assert References[2].field == RequiredFields[6];
    assert References[3].field == RequiredFields[7];
    assert References[4].field == RequiredFields[8];
  }

  /**
   * A `null` id passes the presence check and raises nothing: its lookup
   * finds no row, so the first such reference answers 404 with its own message.
   */
  lemma NullReferenceNotFound(db: Store, data: map<string, Value>, k: nat)
    requires forall i :: 0 <= i < |RequiredFields| ==> RequiredFields[i] in data
    requires k < |References| && References[k].field in data && data[References[k].field].Null?
    requires forall j :: 0 <= j < k ==> References[j].field in data && Resolves(db, References[j], data)
    ensures CreateChecks(db, Some(data)) == Some(Fail(db, 404, References[k].notFound))
  {
    assert RequiredFields[0] in data;
    RequiredCoversReferences(data);
    var r := CheckReferences(db, data, References);
    var i :| 0 <= i < |References| && !Resolves(db, References[i], data)
             && (forall j :: 0 <= j < i ==> Resolves(db, References[j], data))
             && r.value == RefFailure(db, References[i], data);
    assert i == k;
  }

  /** In particular the substitute fiscal's id is never looked up. */
  lemma SubstituteNotChecked(db: Store, data: map<string, Value>, v: Value)
    requires forall i :: 0 <= i < |RequiredFields| ==> RequiredFields[i] in data
    ensures forall i :: 0 <= i < |References| ==> References[i].field in data
    ensures CheckReferences(db, data["fiscal_substituto_id" := v], References) == CheckReferences(db, data, References)
  {
    RequiredCoversReferences(data);
    UncheckedFieldIgnored(db, data, References, "fiscal_substituto_id", v);
  }

  // ----- create -----

  /** Everything `create` checks before inserting passes. */
  predicate CreateAccepted(db: Store, data: Option<map<string, Value>>) {
    && data.Some? && data.value != map[]
    && (forall i :: 0 <= i < |RequiredFields| ==> RequiredFields[i] in data.value)
    && (forall i :: 0 <= i < |References| ==> References[i].field in data.value)
    && (forall i :: 0 <= i < |References| ==> Resolves(db, References[i], data.value))
  }

  /** The checks of `create` before the insert, in source order; None when all pass. */
  function CreateChecks(db: Store, data: Option<map<string, Value>>): (r: Option<Outcome>)
    ensures r.None? <==> CreateAccepted(db, data)
    ensures r.Some? ==> r.value.db == db
    ensures data.None? || data.value == map[] ==> r == Some(Fail(db, 400, NenhumDado))
    ensures data.Some? && data.value != map[] && FirstMissingField(data.value, RequiredFields).Some? ==>
      r == Some(Outcome(Reply(400, MissingField(FirstMissingField(data.value, RequiredFields).value)), db))
    ensures data.Some? && data.value != map[] && FirstMissingField(data.value, RequiredFields).None? ==>
      && (forall i :: 0 <= i < |References| ==> References[i].field in data.value)
      && r == CheckReferences(db, data.value, References)
  {
    if data.None? || data.value == map[] then Some(Fail(db, 400, NenhumDado))
    else
      match FirstMissingField(data.value, RequiredFields)
      case Some(f) => Some(Outcome(Reply(400, MissingField(f)), db))
      case None =>
        RequiredCoversReferences(data.value);
        CheckReferences(db, data.value, References)
  }

  /** The active user `gestor_id` names in an accepted payload. */
  function Gestor(db: Store, d: map<string, Value>): Usuario
    requires CreateAccepted(db, Some(d))
  {
    assert References[3].field == "gestor_id" && Resolves(db, References[3], d);
    Lookups.FindUserById(db, Lookups.AsId(d["gestor_id"]).value).value
  }

  /** The active user `fiscal_id` names in an accepted payload. */
  function Fiscal(db: Store, d: map<string, Value>): Usuario
    requires CreateAccepted(db, Some(d))
  {
    assert References[4].field == "fiscal_id" && Resolves(db, References[4], d);
    Lookups.FindUserById(db, Lookups.AsId(d["fiscal_id"]).value).value
  }

  /** The designation notice to `u` about contract `c`. */
  function Designation(u: Usuario, subject: string, c: Contrato): Email {
    Email(u.email, subject, Body.Designation(u.nome, Col(c.cols, "nr_contrato"), Col(c.cols, "objeto")))
  }

  /**
   * The insert and the two notices of a create whose checks passed: the
   * contract row holds the allow-listed fields and is active; the gestor is
   * told first, then the fiscal.
   */
  function PersistAndNotify(db: Store, data: map<string, Value>, gestor: Usuario, fiscal: Usuario): (r: (Contrato, Store))
    requires "nr_contrato" in data
    ensures var (c, db') := r;
      && c.id == db.contratos.nextId
      && c.cols == ContratoRepo.AllowListed(data)["ativo" := Bool(true)]
      && (forall k :: k in data && k in ContratoRepo.InsertableFields ==> k in c.cols && c.cols[k] == data[k])
      && ContratoRepo.IsActive(c)
      && db'.contratos.rows == db.contratos.rows[c.id := c]
      && db'.contratos.nextId == db.contratos.nextId + 1
      && db'.outbox == db.outbox + [Designation(gestor, GestorSubject, c), Designation(fiscal, FiscalSubject, c)]
      && db'.(contratos := db.contratos, outbox := db.outbox) == db
  {
    assert "nr_contrato" in ContratoRepo.AllowListed(data);
    match ContratoRepo.CreateContrato(db, data)
    case Ok((c, db1)) =>
      var g := Designation(gestor, GestorSubject, c);
      var f := Designation(fiscal, FiscalSubject, c);
      (c, SendEmail(SendEmail(db1, g.to, g.subject, g.body), f.to, f.subject, f.body))
  }

  /** The request carries a `documento_contrato` part with a non-empty file name. */
  predicate AttachesDocument(files: map<string, RelatorioRoutes.Upload>) {
    DocumentKey in files && files[DocumentKey].filename != ""
  }

  /** `update_contrato(id, {'documento': arquivoId})` on the contract just created, answered 201. */
  function RecordDocument(db: Store, c: Contrato, arquivoId: nat): (r: Outcome)
    requires c.id in db.contratos.rows && db.contratos.rows[c.id] == c
    ensures var c' := c.(cols := c.cols["documento" := Int(arquivoId)]);
      && r.reply == Reply(201, ContratoJson(c'))
      && r.db.contratos.rows == db.contratos.rows[c.id := c']
      && r.db.(contratos := db.contratos) == db
  {
    var change := map["documento" := Int(arquivoId)];
    assert "documento" in change;
    var res := ContratoRepo.UpdateContrato(db, c.id, change);
    assert res.value.0.value.cols == c.cols["documento" := Int(arquivoId)];
    Outcome(Reply(201, ContratoJson(res.value.0.value)), res.value.1)
  }

  /**
   * The optional document step after the notices: without a document the new
   * contract is answered as is; a refused upload is 400 with everything
   * before it kept; otherwise the contract's `documento` is the new file.
   */
  function AttachDocument(db: Store, c: Contrato, files: map<string, RelatorioRoutes.Upload>): (r: Outcome)
    requires c.id in db.contratos.rows && db.contratos.rows[c.id] == c
    ensures r.db.outbox == db.outbox
    ensures c.id in r.db.contratos.rows
    ensures forall k :: k in c.cols && (k != "documento" || !AttachesDocument(files)) ==>
      k in r.db.contratos.rows[c.id].cols && r.db.contratos.rows[c.id].cols[k] == c.cols[k]
    ensures !AttachesDocument(files) ==> r == Outcome(Reply(201, ContratoJson(c)), db)
    ensures AttachesDocument(files) && !RelatorioRoutes.AllowedFile(files[DocumentKey].filename) ==>
      r.reply.code == 400 && r.db == db
    ensures AttachesDocument(files) && RelatorioRoutes.AllowedFile(files[DocumentKey].filename) ==>
      && r.reply.code == 201
      && r.db.arquivos.rows.Keys == db.arquivos.rows.Keys + {db.arquivos.nextId}
      && r.db.arquivos.rows[db.arquivos.nextId].contratoId == c.id
      && r.db.contratos.rows == db.contratos.rows[c.id := c.(cols := c.cols["documento" := Int(db.arquivos.nextId)])]
      && r.db.(contratos := db.contratos, arquivos := db.arquivos) == db
  {
    if !AttachesDocument(files) then Outcome(Reply(201, ContratoJson(c)), db)
    else
      match RelatorioRoutes.HandleFileUpload(db, c.id, files, DocumentKey)
      case Err(msg) => Fail(db, 400, msg)
      case Ok((arquivo, db1)) => RecordDocument(db1, c, arquivo.id)
  }

  /** `create` once its checks passed: the insert, the two notices, the optional document. */
  function CreateAfterChecks(db: Store, d: map<string, Value>, files: map<string, RelatorioRoutes.Upload>): Outcome
    requires CreateAccepted(db, Some(d))
  {
    assert "nr_contrato" in d by { assert RequiredFields[0] == "nr_contrato"; }
    var (c, db1) := PersistAndNotify(db, d, Gestor(db, d), Fiscal(db, d));
    AttachDocument(db1, c, files)
  }

  /**
   * An accepted create stores an active contract with the payload's
   * allow-listed fields (a document attached overrides `documento`) and
   * sends exactly two notices, the gestor's first, then the fiscal's.
   */
  lemma CreateStoresAndNotifies(db: Store, d: map<string, Value>, files: map<string, RelatorioRoutes.Upload>)
    requires CreateAccepted(db, Some(d))
    ensures var r := CreateAfterChecks(db, d, files);
      var id := db.contratos.nextId;
      && id in r.db.contratos.rows
      && (forall k :: k in d && k in ContratoRepo.InsertableFields && (k != "documento" || !AttachesDocument(files)) ==>
            k in r.db.contratos.rows[id].cols && r.db.contratos.rows[id].cols[k] == d[k])
      && ContratoRepo.IsActive(r.db.contratos.rows[id])
      && |r.db.outbox| == |db.outbox| + 2
      && r.db.outbox[..|db.outbox|] == db.outbox
      && r.db.outbox[|db.outbox|].to == Gestor(db, d).email
      && r.db.outbox[|db.outbox|].subject == GestorSubject
      && r.db.outbox[|db.outbox| + 1].to == Fiscal(db, d).email
      && r.db.outbox[|db.outbox| + 1].subject == FiscalSubject
  {
    assert "nr_contrato" in d by { assert RequiredFields[0] == "nr_contrato"; }
    var (c, db1) := PersistAndNotify(db, d, Gestor(db, d), Fiscal(db, d));
    assert db1.outbox[..|db.outbox|] == db.outbox;
  }

  /**
   * The answer of an accepted create depends only on the document: 201
   * without one or with an allowed one (then `documento` is the new file),
   * else 400 with the contract and notices kept.
   */
  lemma CreateAnswer(db: Store, d: map<string, Value>, files: map<string, RelatorioRoutes.Upload>)
    requires CreateAccepted(db, Some(d))
    ensures var r := CreateAfterChecks(db, d, files);
      var id := db.contratos.nextId;
      && (r.reply.code == 201 <==> !AttachesDocument(files) || RelatorioRoutes.AllowedFile(files[DocumentKey].filename))
      && (r.reply.code != 201 ==> r.reply.code == 400 && id in r.db.contratos.rows)
      && (AttachesDocument(files) && r.reply.code == 201 ==>
            "documento" in r.db.contratos.rows[id].cols
            && r.db.contratos.rows[id].cols["documento"] == Int(db.arquivos.nextId))
      && (!AttachesDocument(files) ==> r.db.arquivos == db.arquivos)
  {
    assert "nr_contrato" in d by { assert RequiredFields[0] == "nr_contrato"; }
    var (c, db1) := PersistAndNotify(db, d, Gestor(db, d), Fiscal(db, d));
  }

  /** `create`: the checks in source order, then the insert, the notices and the optional document. */
  function CreateHandler(db: Store, data: Option<map<string, Value>>, files: map<string, RelatorioRoutes.Upload>): (r: Outcome)
    ensures r.reply.code == 201 ==> CreateAccepted(db, data)
    ensures !CreateAccepted(db, data) ==> r == CreateChecks(db, data).value && r.db == db
    ensures CreateAccepted(db, data) ==> r == CreateAfterChecks(db, data.value, files)
  {
    match CreateChecks(db, data)
    case Some(o) => o
    case None => CreateAfterChecks(db, data.value, files)
  }

  /** `POST /contratos` behind `admin_required`. */
  function CreateContrato(token: AuthDecorators.Token, db: Store, data: Option<map<string, Value>>,
                          files: map<string, RelatorioRoutes.Upload>): (r: Outcome)
    ensures r.reply.code == 201 ==> token.Claims? && AuthDecorators.AdminAdmits(token.perfil) && CreateAccepted(db, data)
    ensures !(token.Claims? && AuthDecorators.AdminAdmits(token.perfil) && CreateAccepted(db, data)) ==> r.db == db
  {
    AuthDecorators.AdminRequired(token, db, CreateHandler(db, data, files))
  }

  // ----- listing -----

  /** The query-string filters `list_all` passes on: each argument given, as text. */
  function QueryFilters(gestorId: Option<string>, fiscalId: Option<string>): (r: map<string, Value>)
    ensures r.Keys <= {"gestor_id", "fiscal_id"}
    ensures "gestor_id" in r <==> gestorId.Some?
    ensures "fiscal_id" in r <==> fiscalId.Some?
    ensures gestorId.Some? ==> r["gestor_id"] == Text(gestorId.value)
    ensures fiscalId.Some? ==> r["fiscal_id"] == Text(fiscalId.value)
  {
    (if gestorId.Some? then map["gestor_id" := Text(gestorId.value)] else map[])
    + (if fiscalId.Some? then map["fiscal_id" := Text(fiscalId.value)] else map[])
  }

  /** A query argument PostgreSQL cannot cast to `integer` (no numeral, or out of range): the query raises. */
  predicate Uncastable(q: Option<string>) {
    q.Some? && Lookups.Raises(Text(q.value))
  }

  /** The contract answers the `list_all` query: active, and equal on each given filter read as an integer. */
  predicate Listed(c: Contrato, gestorId: Option<string>, fiscalId: Option<string>) {
    && ContratoRepo.IsActive(c)
    && (gestorId.Some? ==>
          Text.IsDigits(gestorId.value) && ContratoRepo.ColumnIs(c, "gestor_id", Int(Text.DigitsValue(gestorId.value))))
    && (fiscalId.Some? ==>
          Text.IsDigits(fiscalId.value) && ContratoRepo.ColumnIs(c, "fiscal_id", Int(Text.DigitsValue(fiscalId.value))))
  }

  /** With numeric arguments, the repository's filter is exactly `Listed`. */
  lemma QueryFiltersMatch(c: Contrato, gestorId: Option<string>, fiscalId: Option<string>)
    requires !Uncastable(gestorId) && !Uncastable(fiscalId)
    ensures ContratoRepo.MatchesFilters(c, QueryFilters(gestorId, fiscalId)) <==> Listed(c, gestorId, fiscalId)
  {
  }

  /**
   * `list_all`: the active contracts matching every filter given, newest
   * `data_fim` first. A filter that is not a numeral makes the query fail,
   * and the uncaught exception becomes Flask's 500.
   */
  function ListAll(db: Store, gestorId: Option<string>, fiscalId: Option<string>): (r: Outcome)
    ensures r.db == db
    ensures r.reply.code == 500 <==> Uncastable(gestorId) || Uncastable(fiscalId)
    ensures r.reply.code != 500 ==> r.reply.code == 200 && r.reply.payload.ContratoListJson?
    ensures r.reply.code == 200 ==>
      var listed := r.reply.payload.contratos;
      && ContratoRepo.OrderedByDataFimDesc(listed)
      && (forall i :: 0 <= i < |listed| ==> listed[i] in db.contratos.rows.Values && Listed(listed[i], gestorId, fiscalId))
      && (TableValid(db.contratos) ==>
            forall k :: k in db.contratos.rows && Listed(db.contratos.rows[k], gestorId, fiscalId) ==>
              db.contratos.rows[k] in listed)
      && (Keyed(db.contratos, ContratoPk) ==> forall i, j :: 0 <= i < j < |listed| ==> listed[i].id != listed[j].id)
  {
    if Uncastable(gestorId) || Uncastable(fiscalId) then Fail(db, 500, InternalServerError)
    else
      var filters := QueryFilters(gestorId, fiscalId);
      var listed := ContratoRepo.GetAllContratos(db, filters);
      assert forall c :: ContratoRepo.MatchesFilters(c, filters) <==> Listed(c, gestorId, fiscalId) by {
        forall c ensures ContratoRepo.MatchesFilters(c, filters) <==> Listed(c, gestorId, fiscalId) {
          QueryFiltersMatch(c, gestorId, fiscalId);
        }
      }
      Outcome(Reply(200, ContratoListJson(listed)), db)
  }

  /**
   * Listing by manager finds every active contract whose `gestor_id` is that
   * manager, and only such contracts; a manager id beyond `integer` makes the
   * query raise.
   */
  lemma ListByGestor(db: Store, gestor: nat)
    requires TableValid(db.contratos)
    ensures gestor > Lookups.MaxInteger ==> ListAll(db, Some(Text.NatToString(gestor)), None).reply.code == 500
    ensures gestor <= Lookups.MaxInteger ==>
      var r := ListAll(db, Some(Text.NatToString(gestor)), None);
      && r.reply.code == 200
      && (forall i :: 0 <= i < |r.reply.payload.contratos| ==>
            && ContratoRepo.IsActive(r.reply.payload.contratos[i])
            && Lookups.AsId(Col(r.reply.payload.contratos[i].cols, "gestor_id").GetOr(Bool(false))) == Ok(gestor as int))
      && (forall k :: k in db.contratos.rows && ContratoRepo.IsActive(db.contratos.rows[k])
                      && Col(db.contratos.rows[k].cols, "gestor_id") == Some(Int(gestor)) ==>
            db.contratos.rows[k] in r.reply.payload.contratos)
  {
    var q := Text.NatToString(gestor);
    Text.DigitsValueOfNatToString(gestor);
    if gestor <= Lookups.MaxInteger {
      GestorListed(db, gestor, q, ListAll(db, Some(q), None).reply.payload.contratos);
    }
  }

  /** A listing that is exactly `Listed` for the manager's numeral holds exactly that manager's active contracts. */
  lemma GestorListed(db: Store, gestor: nat, q: string, listed: seq<Contrato>)
    requires Text.IsDigits(q) && Text.DigitsValue(q) == gestor
    requires forall i :: 0 <= i < |listed| ==> Listed(listed[i], Some(q), None)
    requires forall k :: k in db.contratos.rows && Listed(db.contratos.rows[k], Some(q), None) ==> db.contratos.rows[k] in listed
    ensures forall i :: 0 <= i < |listed| ==>
      && ContratoRepo.IsActive(listed[i])
      && Lookups.AsId(Col(listed[i].cols, "gestor_id").GetOr(Bool(false))) == Ok(gestor as int)
    ensures forall k :: k in db.contratos.rows && ContratoRepo.IsActive(db.contratos.rows[k])
                        && Col(db.contratos.rows[k].cols, "gestor_id") == Some(Int(gestor)) ==>
      db.contratos.rows[k] in listed
  {
    forall k | k in db.contratos.rows && ContratoRepo.IsActive(db.contratos.rows[k])
               && Col(db.contratos.rows[k].cols, "gestor_id") == Some(Int(gestor))
      ensures db.contratos.rows[k] in listed
    {
      assert Listed(db.contratos.rows[k], Some(q), None);
    }
  }

  /** `list_all` behind `jwt_required`: any signed-in role may list. */
  function ListContratos(token: AuthDecorators.Token, db: Store, gestorId: Option<string>, fiscalId: Option<string>): (r: Outcome)
    ensures r.db == db
    ensures r.reply.code == 200 <==> token.Claims? && !Uncastable(gestorId) && !Uncastable(fiscalId)
  {
    AuthDecorators.JwtRequired(token, db, ListAll(db, gestorId, fiscalId))
  }

  // ----- reading one contract -----

  /**
   * `get_by_id` as the source writes it: after the contract is found, the call
   * to `relatorio_repo.get_relatorios_by_contrato_id`, a name the repository
   * does not define, raises outside any `try`, and Flask answers 500.
   */
  function GetByIdAsWritten(db: Store, id: nat): (r: Outcome)
    ensures r.db == db
    ensures r.reply.code == 404 <==> ContratoRepo.FindContratoById(db, id).None?
    ensures r.reply.code != 404 ==> r.reply.code == 500
  {
    if ContratoRepo.FindContratoById(db, id).None? then Fail(db, 404, ContratoNaoEncontrado)
    else Fail(db, 500, InternalServerError)
  }

  /** `get_by_id` with the repository's `find_relatorios_by_contrato_id`: the contract and its reports. */
  function GetByIdHandler(db: Store, id: nat): (r: Outcome)
    ensures r.db == db
    ensures r.reply.code == 404 <==> ContratoRepo.FindContratoById(db, id).None?
    ensures r.reply.code != 404 ==>
      && r.reply.code == 200 && r.reply.payload.ContratoDetailJson?
      && r.reply.payload.contrato == db.contratos.rows[id]
      && ContratoRepo.IsActive(r.reply.payload.contrato)
      && (forall i :: 0 <= i < |r.reply.payload.relatorios| ==>
            r.reply.payload.relatorios[i].contratoId == id && r.reply.payload.relatorios[i] in db.relatorios.rows.Values)
      && (TableValid(db.relatorios) ==>
            forall k :: k in db.relatorios.rows && db.relatorios.rows[k].contratoId == id ==>
              db.relatorios.rows[k] in r.reply.payload.relatorios)
      && (forall i, j :: 0 <= i < j < |r.reply.payload.relatorios| ==>
            r.reply.payload.relatorios[i].createdAt >= r.reply.payload.relatorios[j].createdAt)
      && (Keyed(db.relatorios, RelatorioPk) ==>
            forall i, j :: 0 <= i < j < |r.reply.payload.relatorios| ==>
              r.reply.payload.relatorios[i].id != r.reply.payload.relatorios[j].id)
  {
    match ContratoRepo.FindContratoById(db, id)
    case None => Fail(db, 404, ContratoNaoEncontrado)
    case Some(c) => Outcome(Reply(200, ContratoDetailJson(c, RelatorioRepo.FindRelatoriosByContratoId(db, id))), db)
  }

  /** `GET /contratos/<id>` behind `jwt_required`, with the intended repository call. */
  function GetContrato(token: AuthDecorators.Token, db: Store, id: nat): (r: Outcome)
    ensures r.db == db
    ensures r.reply.code == 200 <==> token.Claims? && ContratoRepo.FindContratoById(db, id).Some?
  {
    AuthDecorators.JwtRequired(token, db, GetByIdHandler(db, id))
  }

  // ----- update and delete -----

  /**
   * `update`: an empty body is 400, a missing or soft-deleted contract 404;
   * otherwise exactly the supplied columns are overwritten.
   */
  function UpdateHandler(db: Store, id: nat, data: Option<map<string, Value>>): (r: Outcome)
    ensures data.None? || data.value == map[] ==> r == Fail(db, 400, SemDadosParaAtualizar)
    ensures r.reply.code == 200 <==> data.Some? && data.value != map[] && ContratoRepo.FindContratoById(db, id).Some?
    ensures r.reply.code != 200 ==> r.db == db
    ensures r.reply.code == 200 ==>
      var before := db.contratos.rows[id];
      && r.reply.payload.ContratoJson?
      && var after := r.reply.payload.contrato;
      && after.cols == before.cols + data.value
      && r.db.contratos.rows == db.contratos.rows[id := after]
      && r.db.(contratos := db.contratos) == db
  {
    if data.None? || data.value == map[] then Fail(db, 400, SemDadosParaAtualizar)
    else if ContratoRepo.FindContratoById(db, id).None? then Fail(db, 404, ContratoNaoEncontrado)
    else
      match ContratoRepo.UpdateContrato(db, id, data.value)
      case Ok((Some(c), db1)) => Outcome(Reply(200, ContratoJson(c)), db1)
      case Ok((None, db1)) => Outcome(Reply(500, Payload.Null), db)
      case Err(msg) => Fail(db, 500, msg)
  }

  /** A `null` in the body sets the column to NULL: the stored row reads NULL there afterwards. */
  lemma UpdateNullClears(db: Store, id: nat, data: map<string, Value>, k: string)
    requires ContratoRepo.FindContratoById(db, id).Some?
    requires k in data && data[k].Null?
    ensures var r := UpdateHandler(db, id, Some(data));
      && r.reply.code == 200
      && id in r.db.contratos.rows
      && Col(r.db.contratos.rows[id].cols, k).None?
  {
  }

  /** `PATCH /contratos/<id>` behind `admin_required`. */
  function UpdateContrato(token: AuthDecorators.Token, db: Store, id: nat, data: Option<map<string, Value>>): (r: Outcome)
    ensures r.reply.code == 200 <==>
      && token.Claims? && AuthDecorators.AdminAdmits(token.perfil)
      && data.Some? && data.value != map[] && ContratoRepo.FindContratoById(db, id).Some?
    ensures r.reply.code != 200 ==> r.db == db
  {
    AuthDecorators.AdminRequired(token, db, UpdateHandler(db, id, data))
  }

  /** `delete`: 404 unless the contract is visible, else the soft delete and 204. */
  function DeleteHandler(db: Store, id: nat): (r: Outcome)
    ensures r.reply.code == 204 <==> ContratoRepo.FindContratoById(db, id).Some?
    ensures r.reply.code != 204 ==> r.reply.code == 404 && r.db == db
    ensures r.reply.code == 204 ==> r.db == ContratoRepo.DeleteContrato(db, id) && r.reply.payload == Payload.Null
  {
    if ContratoRepo.FindContratoById(db, id).None? then Fail(db, 404, ContratoNaoEncontrado)
    else Outcome(Reply(204, Payload.Null), ContratoRepo.DeleteContrato(db, id))
  }

  /** `DELETE /contratos/<id>` behind `admin_required`. */
  function DeleteContrato(token: AuthDecorators.Token, db: Store, id: nat): (r: Outcome)
    ensures r.reply.code == 204 <==>
      token.Claims? && AuthDecorators.AdminAdmits(token.perfil) && ContratoRepo.FindContratoById(db, id).Some?
    ensures r.reply.code != 204 ==> r.db == db
  {
    AuthDecorators.AdminRequired(token, db, DeleteHandler(db, id))
  }

  /**
   * After a delete the contract is hidden from every read: the by-id finder
   * and route, the listing and a second delete, yet its row remains.
   */
  lemma DeletedContractHidden(db: Store, id: nat, filters: map<string, Value>)
    requires ContratoRepo.FindContratoById(db, id).Some?
    ensures var db' := DeleteHandler(db, id).db;
      && ContratoRepo.FindContratoById(db', id).None?
      && id in db'.contratos.rows
      && (forall i :: 0 <= i < |ContratoRepo.GetAllContratos(db', filters)| ==>
            ContratoRepo.GetAllContratos(db', filters)[i] != db'.contratos.rows[id])
      && DeleteHandler(db', id).reply.code == 404
      && GetByIdHandler(db', id).reply.code == 404
      && UpdateHandler(db', id, Some(map["ativo" := Bool(true)])).reply.code == 404
  {
    assert "ativo" in map["ativo" := Bool(true)];
  }
}

=== FILE: db.dfy ===
/**
 * The relational store the routes and repositories work on, as one immutable
 * value: a table per entity (rows keyed by their SERIAL id), the lookup tables
 * of names, and the outbox of e-mails handed to `send_email`.
 */
module Db {
  import opened Wrappers
  import Text
  import Sorting

  /** A scalar as it arrives in a request body or sits in a dynamically built row; `Null` is JSON `null`, stored as SQL NULL. */
  datatype Value = Int(i: int) | Text(s: string) | Bool(b: bool) | Null

  /** A table: rows keyed by id, and the next value of its SERIAL sequence. */
  datatype Table<T> = Table(rows: map<nat, T>, nextId: nat)

  /** Every stored id was handed out by the sequence. */
  predicate TableValid<T>(t: Table<T>) {
    forall k :: k in t.rows ==> k < t.nextId
  }

  /** A fresh table whose sequence starts at 1, as a PostgreSQL SERIAL does. */
  function EmptyTable<T>(): (t: Table<T>)
    ensures TableValid(t) && |t.rows| == 0
  {
    Table(map[], 1)
  }

  /** `INSERT ... RETURNING id`: the row gets the next sequence value. */
  function Insert<T>(t: Table<T>, row: T): (r: (nat, Table<T>))
    ensures r.1.rows == t.rows[r.0 := row]
    ensures r.1.nextId == r.0 + 1
    ensures TableValid(t) ==> r.0 !in t.rows && TableValid(r.1)
  {
    (t.nextId, Table(t.rows[t.nextId := row], t.nextId + 1))
  }

  /** `SELECT ... WHERE id = %s` without further filter. */
  function Get<T>(t: Table<T>, id: int): (r: Option<T>)
    ensures r.Some? <==> id >= 0 && id as nat in t.rows
    ensures r.Some? ==> r.value == t.rows[id as nat]
  {
    if id >= 0 && id as nat in t.rows then Some(t.rows[id as nat]) else None
  }

  /** The keys of `m` below `n`, ascending. */
  function IdsBelow<T>(m: map<nat, T>, n: nat): (r: seq<nat>)
    ensures forall k :: k in r <==> k < n && k in m
    ensures forall i :: 0 <= i < |r| ==> r[i] < n
    ensures forall i, j :: 0 <= i < j < |r| ==> r[i] < r[j]
  {
    if n == 0 then []
    else IdsBelow(m, n - 1) + (if n - 1 in m then [n - 1] else [])
  }

  /** The rows of a table in id order, i.e. insertion order. */
  function Rows<T(==)>(t: Table<T>): (r: seq<T>)
    ensures TableValid(t) ==> forall k :: k in t.rows ==> t.rows[k] in r
    ensures forall i :: 0 <= i < |r| ==> r[i] in t.rows.Values
  {
    var ids := IdsBelow(t.rows, t.nextId);
    var r := seq(|ids|, i requires 0 <= i < |ids| => t.rows[ids[i]]);
    assert forall k :: k in t.rows && k < t.nextId ==> t.rows[k] in r by {
      forall k | k in t.rows && k < t.nextId ensures t.rows[k] in r {
        var i :| 0 <= i < |ids| && ids[i] == k;
        assert r[i] == t.rows[k];
      }
    }
    r
  }

  /** A table whose rows carry their own key as their id, as a SERIAL primary key guarantees. */
  predicate Keyed<T>(t: Table<T>, id: T -> int) {
    TableValid(t) && forall k :: k in t.rows ==> id(t.rows[k]) == k
  }

  /** Reading a keyed table yields each row once. */
  lemma RowsDistinct<T>(t: Table<T>, id: T -> int)
    requires Keyed(t, id)
    ensures Sorting.DistinctBy(Rows(t), id)
  {
    var ids := IdsBelow(t.rows, t.nextId);
    var r := Rows(t);
    assert |r| == |ids| && forall i :: 0 <= i < |r| ==> r[i] == t.rows[ids[i]];
  }

  // ----- entities -----

  datatype Usuario = Usuario(id: nat, nome: string, email: string, cpf: string, perfilId: nat, ativo: bool)

  datatype Contratado = Contratado(id: nat, nome: string, ativo: bool)

  /**
   * A contract row as the dictionary a `RealDictCursor` returns: the columns
   * present in it (an absent column is NULL). `ativo` is itself a column.
   */
  datatype Contrato = Contrato(id: nat, cols: map<string, Value>)

  datatype Pendencia = Pendencia(
    id: nat,
    contratoId: nat,
    descricao: string,
    dataPrazo: int,           // day number
    statusPendenciaId: nat,
    criadoPorUsuarioId: nat,
    updatedAt: int)

  datatype Relatorio = Relatorio(
    id: nat,
    contratoId: nat,
    fiscalUsuarioId: nat,
    arquivoId: nat,
    statusId: nat,
    mesCompetencia: int,      // day number of the competency month
    observacoesFiscal: Option<string>,
    pendenciaId: Option<nat>,
    aprovadorUsuarioId: Option<nat>,
    observacoesAprovador: Option<string>,
    dataAnalise: Option<int>,
    createdAt: int,
    updatedAt: int)

  /** The primary keys, as functions for `Keyed` and `Sorting.DistinctBy`. */
  function ContratoPk(c: Contrato): int { c.id }
  function PendenciaPk(p: Pendencia): int { p.id }
  function RelatorioPk(r: Relatorio): int { r.id }

  datatype Arquivo = Arquivo(
    id: nat,
    nomeArquivo: string,
    pathArmazenamento: string,
    tipoArquivo: string,
    tamanhoBytes: nat,
    contratoId: nat)

  // ----- e-mail -----

  /** The text of an e-mail, kept as the fields its f-string interpolates. */
  datatype Body =
    | Designation(nome: string, nrContrato: Option<Value>, objeto: Option<Value>)
    | Rejection(nome: string, mesCompetencia: int, nrContrato: Option<Value>, motivo: Option<string>)
    | Reminder(nome: string, nrContrato: Option<Value>, descricao: string, dataPrazo: int, prazo: string)

  datatype Email = Email(to: string, subject: string, body: Body)

  /** How a column value prints inside an f-string; a NULL column prints as `None`. */
  function Show(v: Option<Value>): string {
    match v
    case None => "None"
    case Some(Int(i)) => Text.IntToString(i)
    case Some(Text(s)) => s
    case Some(Bool(b)) => if b then "True" else "False"
    case Some(Null) => "None"
  }

  /**
   * Subject of a contract notice: a fixed text, then the contract number as
   * it prints, so the recipient can tell the contracts apart.
   */
  function ContractSubject(prefix: string, nrContrato: Option<Value>): (r: string)
    ensures |r| == |prefix| + |Show(nrContrato)|
    ensures r[..|prefix|] == prefix && Text.EndsWith(r, Show(nrContrato))
  {
    prefix + Show(nrContrato)
  }

  /** The value of column `col`, None when the row holds NULL there (no entry, or an explicit `Null`). */
  function Col(cols: map<string, Value>, col: string): (r: Option<Value>)
    ensures r.Some? <==> col in cols && !cols[col].Null?
    ensures r.Some? ==> r.value == cols[col]
  {
    if col in cols && !cols[col].Null? then Some(cols[col]) else None
  }

  // ----- the store -----

  datatype Store = Store(
    perfis: Table<string>,
    modalidades: Table<string>,
    statusContrato: Table<string>,
    statusRelatorio: Table<string>,
    statusPendencia: Table<string>,
    usuarios: Table<Usuario>,
    contratados: Table<Contratado>,
    contratos: Table<Contrato>,
    pendencias: Table<Pendencia>,
    relatorios: Table<Relatorio>,
    arquivos: Table<Arquivo>,
    outbox: seq<Email>)

  /** Every table's ids come from its sequence and every entity row carries its own key. */
  predicate StoreValid(db: Store) {
    && TableValid(db.perfis) && TableValid(db.modalidades) && TableValid(db.statusContrato)
    && TableValid(db.statusRelatorio) && TableValid(db.statusPendencia)
    && TableValid(db.usuarios) && TableValid(db.contratados) && TableValid(db.contratos)
    && TableValid(db.pendencias) && TableValid(db.relatorios) && TableValid(db.arquivos)
    && (forall k :: k in db.usuarios.rows ==> db.usuarios.rows[k].id == k)
    && (forall k :: k in db.contratos.rows ==> db.contratos.rows[k].id == k)
    && (forall k :: k in db.pendencias.rows ==> db.pendencias.rows[k].id == k)
    && (forall k :: k in db.relatorios.rows ==> db.relatorios.rows[k].id == k)
    && (forall k :: k in db.arquivos.rows ==> db.arquivos.rows[k].id == k)
  }

  /** A freshly migrated, empty database. */
  function EmptyStore(): (db: Store)
    ensures StoreValid(db) && db.outbox == []
  {
    Store(EmptyTable(), EmptyTable(), EmptyTable(), EmptyTable(), EmptyTable(),
          EmptyTable(), EmptyTable(), EmptyTable(), EmptyTable(), EmptyTable(), EmptyTable(), [])
  }

  /**
   * `send_email`: one delivery attempt appended to the outbox. Delivery
   * failures are swallowed inside `send_email`, so the attempt is what the
   * caller can observe; no table changes.
   */
  function SendEmail(db: Store, to: string, subject: string, body: Body): (r: Store)
    ensures r.outbox == db.outbox + [Email(to, subject, body)]
    ensures r.(outbox := db.outbox) == db
  {
    db.(outbox := db.outbox + [Email(to, subject, body)])
  }

  /** The tables of two stores agree; only the outbox may differ. */
  predicate SameTables(a: Store, b: Store) {
    a.(outbox := b.outbox) == b
  }
}

=== FILE: http.dfy ===
/** What a route hands back to Flask: a status code and a JSON payload, plus the store after the request. */
module Http {
  import opened Db

  datatype Payload =
    | Null                                  // `jsonify(None)` or an empty 204 body
    | Error(msg: string)                    // `{'error': ...}`
    | MissingField(field: string)           // `{'error': 'O campo "<field>" é obrigatório'}`
    | PendenciaJson(pendencia: Pendencia)
    | PendenciaListJson(pendencias: seq<Pendencia>)
    | RelatorioJson(relatorio: Relatorio)
    | RelatorioListJson(relatorios: seq<Relatorio>)
    | ContratoJson(contrato: Contrato)
    | ContratoListJson(contratos: seq<Contrato>)
    | ContratoDetailJson(contrato: Contrato, relatorios: seq<Relatorio>)   // the contract with `relatorios_fiscais`

  datatype Reply = Reply(code: int, payload: Payload)

  /** A handled request: the reply and the store it leaves behind. */
  datatype Outcome = Outcome(reply: Reply, db: Store)

  /** A request that fails before touching the store. */
  function Fail(db: Store, code: int, msg: string): (r: Outcome)
    ensures r.reply.code == code && r.db == db
  {
    Outcome(Reply(code, Error(msg)), db)
  }
}

=== FILE: lookups.dfy ===
/**
 * The one-statement finders of the supporting repositories that the workflow
 * consults: users, contracted parties and the lookup tables of names.
 */
module Lookups {
  import opened Wrappers
  import opened Db
  import Text

  /** The lowest id below `n` whose row in the name table is exactly `name`. */
  function FirstNamedBelow(t: Table<string>, name: string, n: nat): (r: Option<nat>)
    ensures r.Some? ==> r.value < n && r.value in t.rows && t.rows[r.value] == name
    ensures r.Some? ==> forall j :: j < r.value && j in t.rows ==> t.rows[j] != name
    ensures r.None? ==> forall j :: j < n && j in t.rows ==> t.rows[j] != name
  {
    if n == 0 then None
    else
      match FirstNamedBelow(t, name, n - 1)
      case Some(k) => Some(k)
      case None => if n - 1 in t.rows && t.rows[n - 1] == name then Some(n - 1) else None
  }

  /**
   * `SELECT * FROM <table> WHERE nome = %s` followed by `fetchone()`: a
   * matching row's id, or None. The query has no ORDER BY, so with duplicate
   * names PostgreSQL may return any match; the model takes the lowest id.
   */
  function FindIdByName(t: Table<string>, name: string): (r: Option<nat>)
    ensures r.Some? ==> r.value in t.rows && t.rows[r.value] == name
    ensures TableValid(t) && r.None? ==> forall k :: k in t.rows ==> t.rows[k] != name
    ensures r.Some? ==> forall j :: j < r.value && j in t.rows ==> t.rows[j] != name
  {
    FirstNamedBelow(t, name, t.nextId)
  }

  /** A name whose lowest holder is `v` is found at `v`. */
  lemma FindLowest(t: Table<string>, name: string, v: nat)
    requires TableValid(t) && v in t.rows && t.rows[v] == name
    requires forall j :: j < v && j in t.rows ==> t.rows[j] != name
    ensures FindIdByName(t, name) == Some(v)
  {
  }

  /** `usuario_repo.find_user_by_id`: only users with `ativo = TRUE` are found. */
  function FindUserById(db: Store, id: int): (r: Option<Usuario>)
    ensures r.Some? <==> id >= 0 && id as nat in db.usuarios.rows && db.usuarios.rows[id as nat].ativo
    ensures r.Some? ==> r.value == db.usuarios.rows[id as nat]
  {
    match Get(db.usuarios, id)
    case Some(u) => if u.ativo then Some(u) else None
    case None => None
  }

  /** `contratado_repo.find_contratado_by_id`: only active contracted parties. */
  function FindContratadoById(db: Store, id: int): (r: Option<Contratado>)
    ensures r.Some? <==> id >= 0 && id as nat in db.contratados.rows && db.contratados.rows[id as nat].ativo
  {
    match Get(db.contratados, id)
    case Some(c) => if c.ativo then Some(c) else None
    case None => None
  }

  /** The largest value of PostgreSQL's `integer` type, the type of every id column. */
  const MaxInteger: int := 2147483647

  /**
   * A request value used where the database expects an integer id. A JSON
   * number is sent as a numeric literal, which PostgreSQL compares with an
   * integer column as it is. A form field or query argument arrives as text,
   * which PostgreSQL casts to `integer`: a decimal numeral within the type's
   * range is accepted, and anything else makes the query raise. A boolean
   * cannot be compared with an integer either. `Null` is no id: it raises
   * nothing, but `id = NULL` matches no row.
   */
  function AsId(v: Value): (r: Result<int>)
    ensures r.Ok? <==> v.Int? || (v.Text? && Text.IsDigits(v.s) && Text.DigitsValue(v.s) <= MaxInteger)
    ensures v.Int? ==> r == Ok(v.i)
    ensures v.Text? && Text.IsDigits(v.s) && Text.DigitsValue(v.s) <= MaxInteger ==> r == Ok(Text.DigitsValue(v.s))
  {
    match v
    case Int(i) => Ok(i)
    case Text(s) =>
      if !Text.IsDigits(s) then Err(CastError)
      else if Text.DigitsValue(s) > MaxInteger then Err(RangeError)
      else Ok(Text.DigitsValue(s))
    case Bool(_) => Err(CastError)
    case Null => Err(NullId)
  }

  const CastError: string := "invalid input syntax for type integer"
  const RangeError: string := "value out of range for type integer"
  const NullId: string := "NULL is not an id"

  /** The query raises on the value: every value that is no id except NULL, which silently matches nothing. */
  predicate Raises(v: Value) {
    AsId(v).Err? && !v.Null?
  }

  /** A rendered id, sent as a form field, reads back as that id, and one beyond `integer` makes the query raise. */
  lemma FormIdReadsBack(id: nat)
    ensures id <= MaxInteger ==> AsId(Text(Text.NatToString(id))) == Ok(id)
    ensures id > MaxInteger ==> Raises(Text(Text.NatToString(id)))
  {
    Text.DigitsValueOfNatToString(id);
  }
}

=== FILE: pendencia_repo.dfy ===
/** Pendência persistence: the insert and the per-contract listing. */
module PendenciaRepo {
  import opened Db
  import Sorting

  /** The four body fields `create_pendencia` copies into the row. */
  datatype NewPendencia = NewPendencia(
    descricao: string, dataPrazo: int, statusPendenciaId: nat, criadoPorUsuarioId: nat)

  /** `create_pendencia(contrato_id, data)`: one new row holding the URL's contract and the body fields as given. */
  function CreatePendencia(db: Store, contratoId: nat, data: NewPendencia, now: int): (r: (Pendencia, Store))
    ensures var (p, db') := r;
      && p.contratoId == contratoId
      && p.descricao == data.descricao
      && p.dataPrazo == data.dataPrazo
      && p.statusPendenciaId == data.statusPendenciaId
      && p.criadoPorUsuarioId == data.criadoPorUsuarioId
      && p.id == db.pendencias.nextId
      && (TableValid(db.pendencias) ==> p.id !in db.pendencias.rows && TableValid(db'.pendencias))
      && (Keyed(db.pendencias, PendenciaPk) ==> Keyed(db'.pendencias, PendenciaPk))
      && db'.pendencias.rows == db.pendencias.rows[p.id := p]
      && db'.(pendencias := db.pendencias) == db
  {
    var p := Pendencia(db.pendencias.nextId, contratoId, data.descricao, data.dataPrazo,
                       data.statusPendenciaId, data.criadoPorUsuarioId, now);
    var (_, t) := Insert(db.pendencias, p);
    (p, db.(pendencias := t))
  }

  /** The `WHERE p.contrato_id = %s` of the listing. */
  function OfContrato(contratoId: nat): Pendencia -> bool {
    (p: Pendencia) => p.contratoId == contratoId
  }

  function PrazoKey(p: Pendencia): int {
    p.dataPrazo
  }

  /**
   * `get_pendencias_by_contrato_id`: every pendência of the contract, whatever
   * its status, ordered by `data_prazo` ascending.
   */
  function GetPendenciasByContratoId(db: Store, contratoId: nat): (r: seq<Pendencia>)
    ensures forall i :: 0 <= i < |r| ==> r[i].contratoId == contratoId && r[i] in db.pendencias.rows.Values
    ensures TableValid(db.pendencias) ==>
      forall k :: k in db.pendencias.rows && db.pendencias.rows[k].contratoId == contratoId ==> db.pendencias.rows[k] in r
    ensures forall i, j :: 0 <= i < j < |r| ==> r[i].dataPrazo <= r[j].dataPrazo
    ensures Keyed(db.pendencias, PendenciaPk) ==> forall i, j :: 0 <= i < j < |r| ==> r[i].id != r[j].id
  {
    ListingContents(db, contratoId);
    ListingOrdered(db, contratoId);
    ListingDistinct(db, contratoId);
    Listing(db, contratoId)
  }

  /** The query itself: the contract's rows, filtered from the table in id order, then sorted. */
  function Listing(db: Store, contratoId: nat): seq<Pendencia> {
    Sorting.SortByKey(Sorting.Filter(Rows(db.pendencias), OfContrato(contratoId)), PrazoKey)
  }

  /** Exactly the contract's rows: each one stored in the table, and all of them in a well-formed table. */
  lemma ListingContents(db: Store, contratoId: nat)
    ensures var r := Listing(db, contratoId);
      forall i :: 0 <= i < |r| ==> r[i].contratoId == contratoId && r[i] in db.pendencias.rows.Values
    ensures TableValid(db.pendencias) ==>
      forall k :: k in db.pendencias.rows && db.pendencias.rows[k].contratoId == contratoId ==>
        db.pendencias.rows[k] in Listing(db, contratoId)
  {
    var rows := Rows(db.pendencias);
    var sorted := Listing(db, contratoId);
    Sorting.FilterThenSort(rows, OfContrato(contratoId), PrazoKey);
    ListingSound(db, contratoId, rows, sorted);
    ListingComplete(db, contratoId, rows, sorted);
  }

  lemma ListingSound(db: Store, contratoId: nat, rows: seq<Pendencia>, sorted: seq<Pendencia>)
    requires forall i :: 0 <= i < |rows| ==> rows[i] in db.pendencias.rows.Values
    requires forall k :: 0 <= k < |sorted| ==> sorted[k] in rows && OfContrato(contratoId)(sorted[k])
    ensures forall i :: 0 <= i < |sorted| ==> sorted[i].contratoId == contratoId && sorted[i] in db.pendencias.rows.Values
  {
  }

  lemma ListingComplete(db: Store, contratoId: nat, rows: seq<Pendencia>, sorted: seq<Pendencia>)
    requires TableValid(db.pendencias) ==> forall k :: k in db.pendencias.rows ==> db.pendencias.rows[k] in rows
    requires forall k :: 0 <= k < |rows| && OfContrato(contratoId)(rows[k]) ==> rows[k] in sorted
    ensures TableValid(db.pendencias) ==>
      forall k :: k in db.pendencias.rows && db.pendencias.rows[k].contratoId == contratoId ==> db.pendencias.rows[k] in sorted
  {
    if TableValid(db.pendencias) {
      forall k | k in db.pendencias.rows && db.pendencias.rows[k].contratoId == contratoId
        ensures db.pendencias.rows[k] in sorted
      {
        var i :| 0 <= i < |rows| && rows[i] == db.pendencias.rows[k];
        assert OfContrato(contratoId)(rows[i]);
      }
    }
  }

  /** The `ORDER BY` of the query. */
  lemma ListingOrdered(db: Store, contratoId: nat)
    ensures var r := Listing(db, contratoId);
      forall i, j :: 0 <= i < j < |r| ==> r[i].dataPrazo <= r[j].dataPrazo
  {
    var r := Listing(db, contratoId);
    forall i, j | 0 <= i < j < |r| ensures r[i].dataPrazo <= r[j].dataPrazo {
      assert PrazoKey(r[i]) <= PrazoKey(r[j]);
    }
  }

  /** Over a keyed table the listing names each row once. */
  lemma ListingDistinct(db: Store, contratoId: nat)
    ensures var r := Listing(db, contratoId);
      Keyed(db.pendencias, PendenciaPk) ==> forall i, j :: 0 <= i < j < |r| ==> r[i].id != r[j].id
  {
    if Keyed(db.pendencias, PendenciaPk) {
      RowsDistinct(db.pendencias, PendenciaPk);
      Sorting.FilterThenSortDistinct(Rows(db.pendencias), OfContrato(contratoId), PrazoKey, PendenciaPk);
    }
  }
}

=== FILE: pendencia_routes.dfy ===
/**
 * The pendência endpoints under `/contratos/<contrato_id>/pendencias`. Neither
 * route carries a role decorator.
 */
module PendenciaRoutes {
  import opened Wrappers
  import opened Db
  import opened Http
  import Lookups
  import ContratoRepo
  import StatusPendenciaRepo
  import PendenciaRepo

  /** The JSON body of `POST`: each field present or absent. */
  datatype PendenciaForm = PendenciaForm(
    descricao: Option<string>,
    dataPrazo: Option<int>,
    statusPendenciaId: Option<nat>,
    criadoPorUsuarioId: Option<nat>)

  /** The first required field absent from the body, in the route's order. */
  function FirstMissing(body: PendenciaForm): (r: Option<string>)
    ensures r.None? <==> body.descricao.Some? && body.dataPrazo.Some? && body.statusPendenciaId.Some? && body.criadoPorUsuarioId.Some?
    ensures r == Some("descricao") <==> body.descricao.None?
    ensures r == Some("data_prazo") <==> body.descricao.Some? && body.dataPrazo.None?
    ensures r == Some("status_pendencia_id") <==> body.descricao.Some? && body.dataPrazo.Some? && body.statusPendenciaId.None?
    ensures r == Some("criado_por_usuario_id") <==>
      body.descricao.Some? && body.dataPrazo.Some? && body.statusPendenciaId.Some? && body.criadoPorUsuarioId.None?
  {
    if body.descricao.None? then Some("descricao")
    else if body.dataPrazo.None? then Some("data_prazo")
    else if body.statusPendenciaId.None? then Some("status_pendencia_id")
    else if body.criadoPorUsuarioId.None? then Some("criado_por_usuario_id")
    else None
  }

  /** `create(contrato_id)`: field checks, then contract, creator and status existence, then the insert. */
  function Create(db: Store, contratoId: nat, body: PendenciaForm, now: int): (r: Outcome)
    ensures FirstMissing(body).Some? ==>
      r == Outcome(Reply(400, MissingField(FirstMissing(body).value)), db)
    ensures FirstMissing(body).None? && ContratoRepo.FindContratoById(db, contratoId).None? ==>
      r.reply.code == 404 && r.db == db
    ensures FirstMissing(body).None? && ContratoRepo.FindContratoById(db, contratoId).Some?
            && Lookups.FindUserById(db, body.criadoPorUsuarioId.value).None? ==>
      r.reply.code == 404 && r.db == db
    ensures FirstMissing(body).None? && ContratoRepo.FindContratoById(db, contratoId).Some?
            && Lookups.FindUserById(db, body.criadoPorUsuarioId.value).Some?
            && StatusPendenciaRepo.FindStatusPendenciaById(db, body.statusPendenciaId.value).None? ==>
      r.reply.code == 404 && r.db == db
    ensures r.reply.code == 201 <==>
      && FirstMissing(body).None?
      && ContratoRepo.FindContratoById(db, contratoId).Some?
      && Lookups.FindUserById(db, body.criadoPorUsuarioId.value).Some?
      && StatusPendenciaRepo.FindStatusPendenciaById(db, body.statusPendenciaId.value).Some?
    ensures r.reply.code != 201 ==> r.db == db
    ensures r.reply.code == 201 ==>
      && r.reply.payload.PendenciaJson?
      && var p := r.reply.payload.pendencia;
      && p.contratoId == contratoId
      && p.statusPendenciaId == body.statusPendenciaId.value
      && p.descricao == body.descricao.value
      && p.dataPrazo == body.dataPrazo.value
      && p.criadoPorUsuarioId == body.criadoPorUsuarioId.value
      && r.db.pendencias.rows == db.pendencias.rows[p.id := p]
      && r.db.(pendencias := db.pendencias) == db
  {
    match FirstMissing(body)
    case Some(field) => Outcome(Reply(400, MissingField(field)), db)
    case None =>
      if ContratoRepo.FindContratoById(db, contratoId).None? then Fail(db, 404, "Contrato não encontrado")
      else if Lookups.FindUserById(db, body.criadoPorUsuarioId.value).None? then Fail(db, 404, "Usuário criador não encontrado")
      else if StatusPendenciaRepo.FindStatusPendenciaById(db, body.statusPendenciaId.value).None? then
        Fail(db, 404, "Status de pendência não encontrado")
      else
        var data := PendenciaRepo.NewPendencia(body.descricao.value, body.dataPrazo.value,
                                               body.statusPendenciaId.value, body.criadoPorUsuarioId.value);
        var (p, db') := PendenciaRepo.CreatePendencia(db, contratoId, data, now);
        Outcome(Reply(201, PendenciaJson(p)), db')
  }

  /** `list_all(contrato_id)`: 404 for a missing or inactive contract, otherwise the repository listing. */
  function ListAll(db: Store, contratoId: nat): (r: Outcome)
    ensures r.db == db
    ensures r.reply.code == 404 <==> ContratoRepo.FindContratoById(db, contratoId).None?
    ensures r.reply.code != 404 ==>
      r.reply == Reply(200, PendenciaListJson(PendenciaRepo.GetPendenciasByContratoId(db, contratoId)))
  {
    if ContratoRepo.FindContratoById(db, contratoId).None? then Fail(db, 404, "Contrato não encontrado")
    else Outcome(Reply(200, PendenciaListJson(PendenciaRepo.GetPendenciasByContratoId(db, contratoId))), db)
  }

  /**
   * The initial status is the client's: a request naming any existing status
   * (not only 'Pendente') creates the pendência with that status.
   */
  lemma InitialStatusIsClients(db: Store, contratoId: nat, body: PendenciaForm, now: int)
    requires FirstMissing(body).None?
    requires ContratoRepo.FindContratoById(db, contratoId).Some?
    requires Lookups.FindUserById(db, body.criadoPorUsuarioId.value).Some?
    requires body.statusPendenciaId.value in db.statusPendencia.rows
    ensures Create(db, contratoId, body, now).reply.code == 201
    ensures Create(db, contratoId, body, now).reply.payload.pendencia.statusPendenciaId == body.statusPendenciaId.value
  {
  }
}

=== FILE: relatorio_repo.dfy ===
/** Report (relatório fiscal) persistence: creation, analysis, resubmission reset and reads. */
module RelatorioRepo {
  import opened Wrappers
  import opened Db
  import Sorting

  /** The status id the resubmission update writes: a constant, assumed to be 'Pendente de Análise'. */
  const StatusPendenteAnaliseId: nat := 1

  /** The dictionary handed to `create_relatorio`; `None` stands for a key absent from it. */
  datatype NewRelatorio = NewRelatorio(
    contratoId: nat,
    fiscalUsuarioId: nat,
    arquivoId: nat,
    statusId: nat,
    mesCompetencia: int,
    observacoesFiscal: Option<string>,
    pendenciaId: Option<nat>)

  /** Replace one report row, leaving every other table and row as it was. */
  function PutRelatorio(db: Store, id: nat, r: Relatorio): Store {
    db.(relatorios := db.relatorios.(rows := db.relatorios.rows[id := r]))
  }

  /**
   * `create_relatorio(data)`: one new row with the given status, exactly as
   * passed; absent optional keys become NULL, the analysis columns start NULL.
   */
  function CreateRelatorio(db: Store, data: NewRelatorio, now: int): (r: (Relatorio, Store))
    ensures var (rel, db') := r;
      && rel.contratoId == data.contratoId
      && rel.fiscalUsuarioId == data.fiscalUsuarioId
      && rel.arquivoId == data.arquivoId
      && rel.statusId == data.statusId
      && rel.mesCompetencia == data.mesCompetencia
      && rel.observacoesFiscal == data.observacoesFiscal
      && rel.pendenciaId == data.pendenciaId
      && rel.aprovadorUsuarioId.None? && rel.observacoesAprovador.None? && rel.dataAnalise.None?
      && rel.id == db.relatorios.nextId
      && (TableValid(db.relatorios) ==> rel.id !in db.relatorios.rows && TableValid(db'.relatorios))
      && (Keyed(db.relatorios, RelatorioPk) ==> Keyed(db'.relatorios, RelatorioPk))
      && db'.relatorios.rows == db.relatorios.rows[rel.id := rel]
      && db'.(relatorios := db.relatorios) == db
  {
    var rel := Relatorio(db.relatorios.nextId, data.contratoId, data.fiscalUsuarioId, data.arquivoId,
                         data.statusId, data.mesCompetencia, data.observacoesFiscal, data.pendenciaId,
                         None, None, None, now, now);
    var (_, t) := Insert(db.relatorios, rel);
    (rel, db.(relatorios := t))
  }

  /** `find_relatorio_by_id`: reports have no `ativo` column, so any stored row is found. */
  function FindRelatorioById(db: Store, id: int): (r: Option<Relatorio>)
    ensures r.Some? <==> id >= 0 && id as nat in db.relatorios.rows
    ensures r.Some? ==> r.value == db.relatorios.rows[id as nat]
  {
    Get(db.relatorios, id)
  }

  /** The row differs from `before` at most in the four columns the analysis writes. */
  predicate OnlyAnalysisChanged(before: Relatorio, after: Relatorio) {
    after.(statusId := before.statusId, aprovadorUsuarioId := before.aprovadorUsuarioId,
           observacoesAprovador := before.observacoesAprovador, dataAnalise := before.dataAnalise) == before
  }

  /**
   * `analise_relatorio`: status, approver, approver remarks and analysis time
   * are written together by one UPDATE and no other column changes (not even
   * `updated_at`). An unknown id returns None and changes nothing.
   */
  function AnaliseRelatorio(db: Store, id: int, aprovadorId: nat, statusId: nat, observacoes: Option<string>, now: int)
    : (r: (Option<Relatorio>, Store))
    ensures r.0.None? <==> !(id >= 0 && id as nat in db.relatorios.rows)
    ensures r.0.None? ==> r.1 == db
    ensures r.0.Some? ==>
      var (before, after) := (db.relatorios.rows[id as nat], r.0.value);
      && after.statusId == statusId
      && after.aprovadorUsuarioId == Some(aprovadorId)
      && after.observacoesAprovador == observacoes
      && after.dataAnalise == Some(now)
      && OnlyAnalysisChanged(before, after)
      && r.1.relatorios.rows == db.relatorios.rows[id as nat := after]
      && r.1.relatorios.nextId == db.relatorios.nextId
      && (Keyed(db.relatorios, RelatorioPk) ==> Keyed(r.1.relatorios, RelatorioPk))
      && r.1.(relatorios := db.relatorios) == db
  {
    match FindRelatorioById(db, id)
    case None => (None, db)
    case Some(rel) =>
      var rel' := rel.(statusId := statusId, aprovadorUsuarioId := Some(aprovadorId),
                       observacoesAprovador := observacoes, dataAnalise := Some(now));
      (Some(rel'), PutRelatorio(db, id as nat, rel'))
  }

  /** The row keeps its identity: contract, fiscal, competency month and originating pendência. */
  predicate SameIdentity(before: Relatorio, after: Relatorio) {
    && after.id == before.id
    && after.contratoId == before.contratoId
    && after.fiscalUsuarioId == before.fiscalUsuarioId
    && after.mesCompetencia == before.mesCompetencia
    && after.pendenciaId == before.pendenciaId
    && after.createdAt == before.createdAt
  }

  /** The report is awaiting analysis with every trace of a previous analysis cleared. */
  predicate ResetForAnalysis(r: Relatorio) {
    && r.statusId == StatusPendenteAnaliseId
    && r.aprovadorUsuarioId.None?
    && r.observacoesAprovador.None?
    && r.dataAnalise.None?
  }

  /**
   * `update_relatorio_reenvio`: new file and fiscal remarks, status back to the
   * constant 1, analysis columns cleared, `updated_at` touched. An unknown id
   * returns None and changes nothing.
   */
  function UpdateRelatorioReenvio(db: Store, id: int, novoArquivoId: nat, observacoesFiscal: Option<string>, now: int)
    : (r: (Option<Relatorio>, Store))
    ensures r.0.None? <==> !(id >= 0 && id as nat in db.relatorios.rows)
    ensures r.0.None? ==> r.1 == db
    ensures r.0.Some? ==>
      var (before, after) := (db.relatorios.rows[id as nat], r.0.value);
      && after.arquivoId == novoArquivoId
      && after.observacoesFiscal == observacoesFiscal
      && ResetForAnalysis(after)
      && after.updatedAt == now
      && SameIdentity(before, after)
      && r.1.relatorios.rows == db.relatorios.rows[id as nat := after]
      && r.1.relatorios.nextId == db.relatorios.nextId
      && (Keyed(db.relatorios, RelatorioPk) ==> Keyed(r.1.relatorios, RelatorioPk))
      && r.1.(relatorios := db.relatorios) == db
  {
    match FindRelatorioById(db, id)
    case None => (None, db)
    case Some(rel) =>
      var rel' := rel.(arquivoId := novoArquivoId, observacoesFiscal := observacoesFiscal,
                       statusId := StatusPendenteAnaliseId, aprovadorUsuarioId := None,
                       observacoesAprovador := None, dataAnalise := None, updatedAt := now);
      (Some(rel'), PutRelatorio(db, id as nat, rel'))
  }

  /**
   * Resubmitting twice with the same inputs gives the same row as resubmitting
   * once, apart from the second `updated_at` touch.
   */
  lemma ReenvioIdempotent(db: Store, id: nat, arquivoId: nat, obs: Option<string>, now1: int, now2: int)
    requires id in db.relatorios.rows
    ensures var (once, db1) := UpdateRelatorioReenvio(db, id, arquivoId, obs, now1);
      var (twice, db2) := UpdateRelatorioReenvio(db1, id, arquivoId, obs, now2);
      && once.Some? && twice.Some?
      && twice.value == once.value.(updatedAt := now2)
      && (now1 == now2 ==> db2 == db1)
  {
    var (once, db1) := UpdateRelatorioReenvio(db, id, arquivoId, obs, now1);
    assert db1.relatorios.rows[id] == once.value;
  }

  /** Whatever an analysis wrote, a resubmission afterwards resets the report for a new analysis. */
  lemma ReenvioAfterAnalysisResets(db: Store, id: nat, aprovador: nat, status: nat, obsA: Option<string>,
                                   arquivoId: nat, obsF: Option<string>, t1: int, t2: int)
    requires id in db.relatorios.rows
    ensures var (_, db1) := AnaliseRelatorio(db, id, aprovador, status, obsA, t1);
      var (r, _) := UpdateRelatorioReenvio(db1, id, arquivoId, obsF, t2);
      && r.Some? && ResetForAnalysis(r.value)
      && SameIdentity(db.relatorios.rows[id], r.value)
  {
    var (a, db1) := AnaliseRelatorio(db, id, aprovador, status, obsA, t1);
    assert db1.relatorios.rows[id] == a.value;
  }

  function CreatedDescKey(r: Relatorio): int {
    -r.createdAt
  }

  /** The `WHERE rf.contrato_id = %s` of the listing. */
  function OfContrato(contratoId: nat): Relatorio -> bool {
    (r: Relatorio) => r.contratoId == contratoId
  }

  /** `find_relatorios_by_contrato_id`: that contract's reports, newest `created_at` first. */
  function FindRelatoriosByContratoId(db: Store, contratoId: nat): (r: seq<Relatorio>)
    ensures forall i :: 0 <= i < |r| ==> r[i].contratoId == contratoId && r[i] in db.relatorios.rows.Values
    ensures TableValid(db.relatorios) ==>
      forall k :: k in db.relatorios.rows && db.relatorios.rows[k].contratoId == contratoId ==> db.relatorios.rows[k] in r
    ensures forall i, j :: 0 <= i < j < |r| ==> r[i].createdAt >= r[j].createdAt
    ensures Keyed(db.relatorios, RelatorioPk) ==> forall i, j :: 0 <= i < j < |r| ==> r[i].id != r[j].id
  {
    ListingContents(db, contratoId);
    ListingOrdered(db, contratoId);
    ListingDistinct(db, contratoId);
    Listing(db, contratoId)
  }

  /** The query itself: the contract's rows, filtered from the table in id order, then sorted. */
  function Listing(db: Store, contratoId: nat): seq<Relatorio> {
    Sorting.SortByKey(Sorting.Filter(Rows(db.relatorios), OfContrato(contratoId)), CreatedDescKey)
  }

  /** Exactly the contract's rows: each one stored in the table, and all of them in a well-formed table. */
  lemma ListingContents(db: Store, contratoId: nat)
    ensures var r := Listing(db, contratoId);
      forall i :: 0 <= i < |r| ==> r[i].contratoId == contratoId && r[i] in db.relatorios.rows.Values
    ensures TableValid(db.relatorios) ==>
      forall k :: k in db.relatorios.rows && db.relatorios.rows[k].contratoId == contratoId ==>
        db.relatorios.rows[k] in Listing(db, contratoId)
  {
    var rows := Rows(db.relatorios);
    var sorted := Listing(db, contratoId);
    Sorting.FilterThenSort(rows, OfContrato(contratoId), CreatedDescKey);
    ListingSound(db, contratoId, rows, sorted);
    ListingComplete(db, contratoId, rows, sorted);
  }

  lemma ListingSound(db: Store, contratoId: nat, rows: seq<Relatorio>, sorted: seq<Relatorio>)
    requires forall i :: 0 <= i < |rows| ==> rows[i] in db.relatorios.rows.Values
    requires forall k :: 0 <= k < |sorted| ==> sorted[k] in rows && OfContrato(contratoId)(sorted[k])
    ensures forall i :: 0 <= i < |sorted| ==> sorted[i].contratoId == contratoId && sorted[i] in db.relatorios.rows.Values
  {
  }

  lemma ListingComplete(db: Store, contratoId: nat, rows: seq<Relatorio>, sorted: seq<Relatorio>)
    requires TableValid(db.relatorios) ==> forall k :: k in db.relatorios.rows ==> db.relatorios.rows[k] in rows
    requires forall k :: 0 <= k < |rows| && OfContrato(contratoId)(rows[k]) ==> rows[k] in sorted
    ensures TableValid(db.relatorios) ==>
      forall k :: k in db.relatorios.rows && db.relatorios.rows[k].contratoId == contratoId ==> db.relatorios.rows[k] in sorted
  {
    if TableValid(db.relatorios) {
      forall k | k in db.relatorios.rows && db.relatorios.rows[k].contratoId == contratoId
        ensures db.relatorios.rows[k] in sorted
      {
        var i :| 0 <= i < |rows| && rows[i] == db.relatorios.rows[k];
        assert OfContrato(contratoId)(rows[i]);
      }
    }
  }

  /** The `ORDER BY` of the query. */
  lemma ListingOrdered(db: Store, contratoId: nat)
    ensures var r := Listing(db, contratoId);
      forall i, j :: 0 <= i < j < |r| ==> r[i].createdAt >= r[j].createdAt
  {
    var r := Listing(db, contratoId);
    forall i, j | 0 <= i < j < |r| ensures r[i].createdAt >= r[j].createdAt {
      assert CreatedDescKey(r[i]) <= CreatedDescKey(r[j]);
    }
  }

  /** Over a keyed table the listing names each row once. */
  lemma ListingDistinct(db: Store, contratoId: nat)
    ensures var r := Listing(db, contratoId);
      Keyed(db.relatorios, RelatorioPk) ==> forall i, j :: 0 <= i < j < |r| ==> r[i].id != r[j].id
  {
    if Keyed(db.relatorios, RelatorioPk) {
      RowsDistinct(db.relatorios, RelatorioPk);
      Sorting.FilterThenSortDistinct(Rows(db.relatorios), OfContrato(contratoId), CreatedDescKey, RelatorioPk);
    }
  }
}

=== FILE: relatorio_routes.dfy ===
/**
 * The report workflow endpoints under `/contratos/<contrato_id>/relatorios`:
 * upload validation, submission (with the pendência cascade), analysis (with
 * the rejection e-mail) and resubmission.
 */
module RelatorioRoutes {
  import opened Wrappers
  import opened Db
  import opened Http
  import Text
  import Lookups
  import AuthDecorators
  import ContratoRepo
  import StatusPendenciaRepo
  import RelatorioRepo

  // ----- upload -----

  const AllowedExtensions: set<string> := {"pdf", "doc", "docx", "xls", "xlsx", "txt"}

  /** `allowed_file`: the name has a '.' and the lower-cased text after its last '.' is an allowed extension. */
  function AllowedFile(filename: string): (r: bool)
    ensures r ==> '.' in filename
  {
    '.' in filename && Text.Lower(Text.AfterLast(filename, '.')) in AllowedExtensions
  }

  /** The accepted names are exactly those whose suffix after the last '.', lower-cased, is an allowed extension. */
  lemma AllowedFileIff(filename: string)
    ensures AllowedFile(filename) <==>
      exists i :: 0 <= i < |filename| && filename[i] == '.' && '.' !in filename[i + 1..]
                  && Text.Lower(filename[i + 1..]) in AllowedExtensions
  {
    if AllowedFile(filename) {
      var k := Text.LastIndexOf(filename, '.').value;
      assert filename[k + 1..] == Text.AfterLast(filename, '.');
    } else {
      forall i | 0 <= i < |filename| && filename[i] == '.' && '.' !in filename[i + 1..]
        ensures Text.Lower(filename[i + 1..]) !in AllowedExtensions
      {
        Text.LastIndexOfIsLast(filename, '.', i);
      }
    }
  }

  /** Extension matching ignores case and looks only at the last suffix. */
  lemma AllowedFileAccepts()
    ensures AllowedFile("X.PDF")
    ensures AllowedFile("a.tar.docx")
  {
    Text.LastIndexOfIsLast("X.PDF", '.', 1);
    assert Text.AfterLast("X.PDF", '.') == "PDF";
    assert Text.Lower("PDF") == "pdf";
    Text.LastIndexOfIsLast("a.tar.docx", '.', 5);
    assert Text.AfterLast("a.tar.docx", '.') == "docx";
    assert Text.Lower("docx") == "docx";
  }

  /** A name without a dot, with a foreign last suffix, or ending in a dot is refused. */
  lemma AllowedFileRejects()
    ensures !AllowedFile("pdf")
    ensures !AllowedFile("a.pdf.zip")
    ensures !AllowedFile("a.")
  {
    NoDotRejected();
    ForeignSuffixRejected();
    EmptySuffixRejected();
  }

  lemma NoDotRejected()
    ensures !AllowedFile("pdf")
  {
    assert "pdf"[0] != '.' && "pdf"[1] != '.' && "pdf"[2] != '.';
  }

  lemma ForeignSuffixRejected()
    ensures !AllowedFile("a.pdf.zip")
  {
    Text.LastIndexOfIsLast("a.pdf.zip", '.', 5);
    assert Text.AfterLast("a.pdf.zip", '.') == "zip";
    assert Text.Lower("zip")[0] == 'z';
  }

  lemma EmptySuffixRejected()
    ensures !AllowedFile("a.")
  {
    Text.LastIndexOfIsLast("a.", '.', 1);
    assert Text.AfterLast("a.", '.') == "";
  }

  /**
   * A file part of a multipart request. `storedName` and `storedPath` stand
   * for what `secure_filename` and the save yield, `size` for the size read
   * back from disk; they are opaque here.
   */
  datatype Upload = Upload(filename: string, storedName: string, storedPath: string, mimetype: string, size: nat)

  /** The `ValueError` `_handle_file_upload` raises before saving anything, if any. */
  function UploadError(files: map<string, Upload>, key: string): (r: Option<string>)
    ensures r.None? <==> key in files && files[key].filename != "" && AllowedFile(files[key].filename)
  {
    if key !in files then Some("Nenhum arquivo encontrado com a chave '" + key + "'")
    else if files[key].filename == "" then Some("Nome do arquivo não pode ser vazio")
    else if !AllowedFile(files[key].filename) then Some("Tipo de arquivo não permitido")
    else None
  }

  /**
   * `_handle_file_upload(contrato_id, key)`: validation first; a failure
   * leaves the store alone. Otherwise the file is saved and exactly one
   * `arquivo` row, owned by `contratoId`, is inserted.
   */
  function HandleFileUpload(db: Store, contratoId: nat, files: map<string, Upload>, key: string): (r: Result<(Arquivo, Store)>)
    ensures r.Err? <==> UploadError(files, key).Some?
    ensures r.Err? ==> r.msg == UploadError(files, key).value
    ensures r.Ok? ==>
      var (a, db') := r.value;
      && a.contratoId == contratoId
      && a.nomeArquivo == files[key].storedName
      && a.pathArmazenamento == files[key].storedPath
      && a.tipoArquivo == files[key].mimetype
      && a.tamanhoBytes == files[key].size
      && a.id == db.arquivos.nextId
      && (TableValid(db.arquivos) ==> a.id !in db.arquivos.rows)
      && db'.arquivos.rows == db.arquivos.rows[a.id := a]
      && db'.(arquivos := db.arquivos) == db
  {
    match UploadError(files, key)
    case Some(msg) => Err(msg)
    case None =>
      var f := files[key];
      var a := Arquivo(db.arquivos.nextId, f.storedName, f.storedPath, f.mimetype, f.size, contratoId);
      var (_, t) := Insert(db.arquivos, a);
      Ok((a, db.(arquivos := t)))
  }

  // ----- submission -----

  /**
   * The lookup the routes call as `status_relatorio_repo.find_statusrelatorio_by_name`.
   * That repository defines no such function; this is the one evidently
   * intended, written like `find_statuspendencia_by_name`: the id of a row
   * named exactly `name`, or None.
   */
  function FindStatusRelatorioByName(db: Store, name: string): (r: Option<nat>)
    ensures r.Some? ==> r.value in db.statusRelatorio.rows && db.statusRelatorio.rows[r.value] == name
    ensures TableValid(db.statusRelatorio) && r.None? ==>
      forall k :: k in db.statusRelatorio.rows ==> db.statusRelatorio.rows[k] != name
  {
    Lookups.FindIdByName(db.statusRelatorio, name)
  }

  const PendenteDeAnalise: string := "Pendente de Análise"
  const RejeitadoComPendencia: string := "Rejeitado com Pendência"
  const Concluida: string := "Concluída"

  /** The multipart form fields of a submission; `statusId` is whatever the client sent. */
  datatype SubmitForm = SubmitForm(
    pendenciaId: Option<nat>,
    mesCompetencia: Option<int>,
    fiscalUsuarioId: Option<nat>,
    observacoesFiscal: Option<string>,
    statusId: Option<nat>)

  /** How far a submission got before the pendência cascade. */
  datatype SubmitStage =
    | Answered(outcome: Outcome)
    | Persisted(relatorio: Relatorio, db: Store, concluidaId: nat)

  /** Every check of `submit_relatorio` passes, so the file and the report get stored. */
  predicate SubmissionAccepted(db: Store, contratoId: nat, form: SubmitForm, files: map<string, Upload>) {
    && ContratoRepo.FindContratoById(db, contratoId).Some?
    && form.pendenciaId.Some?
    && form.mesCompetencia.Some? && form.fiscalUsuarioId.Some?
    && FindStatusRelatorioByName(db, PendenteDeAnalise).Some?
    && StatusPendenciaRepo.FindStatusPendenciaByName(db, Concluida).Some?
    && UploadError(files, "arquivo").None?
  }

  const ContratoNaoEncontrado: string := "Contrato não encontrado"
  const PendenciaObrigatoria: string := "É obrigatório informar o ID da pendência (pendencia_id) à qual este relatório responde."
  const CamposObrigatorios: string := "Campos de formulário obrigatórios: ['mes_competencia', 'fiscal_usuario_id']"
  const StatusPadraoAusente: string := "Status padrão (\"Pendente de Análise\", \"Concluída\") não encontrados no banco. Execute o seeder."

  /** The form checks `submit_relatorio` makes first, in source order; `None` when all pass. */
  function FormChecks(db: Store, contratoId: nat, form: SubmitForm): (r: Option<Outcome>)
    ensures r.None? <==>
      && ContratoRepo.FindContratoById(db, contratoId).Some?
      && form.pendenciaId.Some? && form.mesCompetencia.Some? && form.fiscalUsuarioId.Some?
    ensures r.Some? ==> r.value.db == db
    ensures ContratoRepo.FindContratoById(db, contratoId).None? ==> r.Some? && r.value.reply.code == 404
    ensures ContratoRepo.FindContratoById(db, contratoId).Some? && form.pendenciaId.None? ==>
      r.Some? && r.value.reply.code == 400
    ensures ContratoRepo.FindContratoById(db, contratoId).Some? && form.pendenciaId.Some?
            && (form.mesCompetencia.None? || form.fiscalUsuarioId.None?) ==>
      r.Some? && r.value.reply.code == 400
  {
    if ContratoRepo.FindContratoById(db, contratoId).None? then Some(Fail(db, 404, ContratoNaoEncontrado))
    else if form.pendenciaId.None? then Some(Fail(db, 400, PendenciaObrigatoria))
    else if form.mesCompetencia.None? || form.fiscalUsuarioId.None? then Some(Fail(db, 400, CamposObrigatorios))
    else None
  }

  /** The checks `submit_relatorio` makes before touching the upload, in source order; `None` when all pass. */
  function SubmitChecks(db: Store, contratoId: nat, form: SubmitForm): (r: Option<Outcome>)
    ensures r.None? <==>
      && ContratoRepo.FindContratoById(db, contratoId).Some?
      && form.pendenciaId.Some? && form.mesCompetencia.Some? && form.fiscalUsuarioId.Some?
      && FindStatusRelatorioByName(db, PendenteDeAnalise).Some?
      && StatusPendenciaRepo.FindStatusPendenciaByName(db, Concluida).Some?
    ensures r.Some? ==> r.value.db == db
    ensures FormChecks(db, contratoId, form).Some? ==> r == FormChecks(db, contratoId, form)
    ensures FormChecks(db, contratoId, form).None? ==> r.None? || r.value.reply.code == 500
  {
    match FormChecks(db, contratoId, form)
    case Some(o) => Some(o)
    case None =>
      if FindStatusRelatorioByName(db, PendenteDeAnalise).None?
         || StatusPendenciaRepo.FindStatusPendenciaByName(db, Concluida).None?
      then Some(Fail(db, 500, StatusPadraoAusente))
      else None
  }

  /**
   * The upload and the two inserts of a submission whose checks passed: the
   * report references the new file and carries `statusId`, the form's fields
   * and nothing from the analysis.
   */
  function StoreSubmission(db: Store, contratoId: nat, pendenciaId: nat, mesCompetencia: int, fiscalUsuarioId: nat,
                           observacoesFiscal: Option<string>, statusId: nat, files: map<string, Upload>, now: int)
    : (r: Result<(Relatorio, Store)>)
    ensures r.Err? <==> UploadError(files, "arquivo").Some?
    ensures r.Err? ==> r.msg == UploadError(files, "arquivo").value
    ensures r.Ok? ==>
      var (rel, db') := r.value;
      && rel.statusId == statusId
      && rel.contratoId == contratoId
      && rel.pendenciaId == Some(pendenciaId)
      && rel.fiscalUsuarioId == fiscalUsuarioId
      && rel.mesCompetencia == mesCompetencia
      && rel.observacoesFiscal == observacoesFiscal
      && rel.aprovadorUsuarioId.None? && rel.observacoesAprovador.None? && rel.dataAnalise.None?
      && rel.id == db.relatorios.nextId
      && rel.arquivoId == db.arquivos.nextId
      && db'.arquivos.rows.Keys == db.arquivos.rows.Keys + {rel.arquivoId}
      && var a := db'.arquivos.rows[rel.arquivoId];
      && a.contratoId == contratoId
      && a.nomeArquivo == files["arquivo"].storedName
      && a.pathArmazenamento == files["arquivo"].storedPath
      && a.tipoArquivo == files["arquivo"].mimetype
      && a.tamanhoBytes == files["arquivo"].size
      && db'.relatorios.rows == db.relatorios.rows[rel.id := rel]
      && (TableValid(db.relatorios) ==> rel.id !in db.relatorios.rows)
      && db'.(relatorios := db.relatorios, arquivos := db.arquivos) == db
  {
    match HandleFileUpload(db, contratoId, files, "arquivo")
    case Err(msg) => Err(msg)
    case Ok((arquivo, db1)) =>
      var data := RelatorioRepo.NewRelatorio(contratoId, fiscalUsuarioId, arquivo.id, statusId,
                                             mesCompetencia, observacoesFiscal, Some(pendenciaId));
      Ok(RelatorioRepo.CreateRelatorio(db1, data, now))
  }

  /** `submit_relatorio` up to the report insert, with the status forced to 'Pendente de Análise'. */
  function SubmitUpToCascade(db: Store, contratoId: nat, form: SubmitForm, files: map<string, Upload>, now: int): (r: SubmitStage)
    ensures r.Persisted? <==> SubmissionAccepted(db, contratoId, form, files)
    ensures r.Answered? ==> r.outcome.db == db
    ensures r.Answered? && SubmitChecks(db, contratoId, form).Some? ==>
      r.outcome == SubmitChecks(db, contratoId, form).value
    ensures r.Answered? && SubmitChecks(db, contratoId, form).None? ==> r.outcome.reply.code == 400
    ensures r.Persisted? ==>
      && r.concluidaId == StatusPendenciaRepo.FindStatusPendenciaByName(db, Concluida).value
      && StoreSubmission(db, contratoId, form.pendenciaId.value, form.mesCompetencia.value, form.fiscalUsuarioId.value,
                         form.observacoesFiscal, FindStatusRelatorioByName(db, PendenteDeAnalise).value, files, now) == Ok((r.relatorio, r.db))
  {
    match SubmitChecks(db, contratoId, form)
    case Some(o) => Answered(o)
    case None =>
      match StoreSubmission(db, contratoId, form.pendenciaId.value, form.mesCompetencia.value, form.fiscalUsuarioId.value,
                            form.observacoesFiscal, FindStatusRelatorioByName(db, PendenteDeAnalise).value, files, now)
      case Err(msg) => Answered(Fail(db, 400, msg))
      case Ok((rel, db1)) => Persisted(rel, db1, StatusPendenciaRepo.FindStatusPendenciaByName(db, Concluida).value)
  }

  /**
   * The submission handler with the cascade through the status-pendência
   * repository: the referenced pendência, if it exists, becomes 'Concluída';
   * whether it exists or belongs to the contract is never checked, and 201 is
   * answered either way.
   */
  function SubmitHandler(db: Store, contratoId: nat, form: SubmitForm, files: map<string, Upload>, now: int): (r: Outcome)
    ensures r.reply.code == 201 <==> SubmissionAccepted(db, contratoId, form, files)
    ensures r.reply.code != 201 ==> r.db == db
    ensures r.reply.code == 201 ==>
      && r.reply.payload.RelatorioJson?
      && var rel := r.reply.payload.relatorio;
      && var pid := form.pendenciaId.value;
      && rel.statusId == FindStatusRelatorioByName(db, PendenteDeAnalise).value
      && rel.pendenciaId == Some(pid)
      && r.db.relatorios.rows == db.relatorios.rows[rel.id := rel]
      && r.db.arquivos.rows.Keys == db.arquivos.rows.Keys + {rel.arquivoId}
      && r.db.pendencias.rows.Keys == db.pendencias.rows.Keys
      && (pid in db.pendencias.rows ==>
            r.db.pendencias.rows[pid].statusPendenciaId == StatusPendenciaRepo.FindStatusPendenciaByName(db, Concluida).value)
      && (forall k :: k in db.pendencias.rows && k != pid ==> r.db.pendencias.rows[k] == db.pendencias.rows[k])
      && r.db.(relatorios := db.relatorios, arquivos := db.arquivos, pendencias := db.pendencias) == db
  {
    match SubmitUpToCascade(db, contratoId, form, files, now)
    case Answered(o) => o
    case Persisted(rel, db1, concluidaId) =>
      var (_, db2) := StatusPendenciaRepo.UpdatePendenciaStatus(db1, form.pendenciaId.value, concluidaId, now);
      Outcome(Reply(201, RelatorioJson(rel)), db2)
  }

  /** `POST /contratos/<id>/relatorios` behind `fiscal_required`, cascading as intended. */
  function SubmitRelatorio(token: AuthDecorators.Token, db: Store, contratoId: nat, form: SubmitForm,
                           files: map<string, Upload>, now: int): (r: Outcome)
    ensures r.reply.code == 201 <==>
      token.Claims? && AuthDecorators.FiscalAdmits(token.perfil) && SubmissionAccepted(db, contratoId, form, files)
    ensures r.reply.code != 201 ==> r.db == db
    ensures r.reply.code == 201 ==>
      r.reply.payload.RelatorioJson? && r.reply.payload.relatorio.statusId == FindStatusRelatorioByName(db, PendenteDeAnalise).value
  {
    AuthDecorators.FiscalRequired(token, db, SubmitHandler(db, contratoId, form, files, now))
  }

  /** The client's `status_id` has no influence on a submission. */
  lemma SubmitIgnoresClientStatus(db: Store, contratoId: nat, form: SubmitForm, files: map<string, Upload>, now: int,
                                  s1: Option<nat>, s2: Option<nat>)
    ensures SubmitHandler(db, contratoId, form.(statusId := s1), files, now)
         == SubmitHandler(db, contratoId, form.(statusId := s2), files, now)
  {
  }

  /** As written, the status lookup by name is a call the status-relatório repository cannot answer. */
  const SubmitLookupError: string :=
    "Erro ao processar o relatório: module 'app.repository.status_relatorio_repo' has no attribute 'find_statusrelatorio_by_name'"

  /**
   * `submit_relatorio` as the source writes it: once the form checks pass,
   * the first statement of the `try`, the status lookup by name, raises
   * `AttributeError`; the generic handler answers 500 before anything is saved.
   */
  function SubmitHandlerAsWritten(db: Store, contratoId: nat, form: SubmitForm, files: map<string, Upload>,
                                  now: int): (r: Outcome)
    ensures r.db == db
    ensures r.reply.code != 201
    ensures r.reply.code == 500 <==> FormChecks(db, contratoId, form).None?
    ensures FormChecks(db, contratoId, form).Some? ==> r == SubmitHandler(db, contratoId, form, files, now)
  {
    match FormChecks(db, contratoId, form)
    case Some(o) => o
    case None => Fail(db, 500, SubmitLookupError)
  }

  /**
   * The discrepancy at the status lookup: a submission the intended route
   * accepts with 201 gets 500 from the code as written, and nothing is stored.
   */
  lemma SubmitAsWrittenStoresNothing(db: Store, contratoId: nat, form: SubmitForm, files: map<string, Upload>, now: int)
    requires SubmissionAccepted(db, contratoId, form, files)
    ensures var w := SubmitHandlerAsWritten(db, contratoId, form, files, now);
      w.reply.code == 500 && w.db == db
    ensures SubmitHandler(db, contratoId, form, files, now).reply.code == 201
  {
  }

  /** As written, the cascade is a call into the pendência repository, which has no such function. */
  const CascadeError: string :=
    "Erro ao processar o relatório: module 'app.repository.pendencia_repo' has no attribute 'update_pendencia_status'"

  /**
   * The submission handler with the status lookup in place, but with the
   * cascade call as the source writes it: that call raises `AttributeError`,
   * the generic handler answers 500, and the report and file rows, already
   * committed, stay behind.
   */
  function SubmitCascadeAsWritten(db: Store, contratoId: nat, form: SubmitForm, files: map<string, Upload>,
                                  now: int): (r: Outcome)
    ensures r.reply.code != 201
    ensures !SubmissionAccepted(db, contratoId, form, files) ==>
      r == SubmitHandler(db, contratoId, form, files, now)
  {
    match SubmitUpToCascade(db, contratoId, form, files, now)
    case Answered(o) => o
    case Persisted(_, db1, _) => Fail(db1, 500, CascadeError)
  }

  /**
   * The discrepancy at the cascade: a submission that passes every check gets
   * 500, yet its report row is stored and the pendência it answers is left
   * untouched; the corrected handler answers 201 and concludes that pendência.
   */
  lemma SubmitCascadeStrandsReport(db: Store, contratoId: nat, form: SubmitForm, files: map<string, Upload>, now: int)
    requires SubmissionAccepted(db, contratoId, form, files)
    ensures var w := SubmitCascadeAsWritten(db, contratoId, form, files, now);
      && w.reply.code == 500
      && |w.db.relatorios.rows.Keys| >= |db.relatorios.rows.Keys|
      && db.relatorios.nextId in w.db.relatorios.rows
      && w.db.pendencias == db.pendencias
    ensures SubmitHandler(db, contratoId, form, files, now).reply.code == 201
  {
    var stage := SubmitUpToCascade(db, contratoId, form, files, now);
    assert stage.relatorio.id == db.relatorios.nextId;
  }

  // ----- analysis -----

  /** The JSON body of the analysis `PATCH`. */
  datatype AnaliseForm = AnaliseForm(aprovadorUsuarioId: Option<nat>, statusId: Option<nat>, observacoesAprovador: Option<string>)

  /** The fixed start of the rejection e-mail's subject. */
  const RejectionPrefix: string := "Relatório Rejeitado - Contrato "

  /** The route's conditions for the rejection e-mail after the update. */
  predicate NotifiesRejection(db: Store, contratoId: nat, rel: Relatorio) {
    && FindStatusRelatorioByName(db, RejeitadoComPendencia) == Some(rel.statusId)
    && Lookups.FindUserById(db, rel.fiscalUsuarioId).Some?
    && ContratoRepo.FindContratoById(db, contratoId).Some?
  }

  /** The analysis checks pass: fields present, report, active approver and status all exist. */
  predicate AnalysisAccepted(db: Store, relatorioId: nat, body: AnaliseForm) {
    && body.aprovadorUsuarioId.Some? && body.statusId.Some?
    && RelatorioRepo.FindRelatorioById(db, relatorioId).Some?
    && Lookups.FindUserById(db, body.aprovadorUsuarioId.value).Some?
    && body.statusId.value in db.statusRelatorio.rows
  }

  /** The rejection e-mail: to the report's fiscal, naming the URL's contract. */
  function NotifyRejection(db: Store, contratoId: nat, rel: Relatorio): (r: Store)
    ensures !NotifiesRejection(db, contratoId, rel) ==> r == db
    ensures NotifiesRejection(db, contratoId, rel) ==>
      var fiscal := db.usuarios.rows[rel.fiscalUsuarioId];
      var nr := Col(db.contratos.rows[contratoId].cols, "nr_contrato");
      && SameTables(r, db)
      && |r.outbox| == |db.outbox| + 1
      && r.outbox[..|db.outbox|] == db.outbox
      && r.outbox[|db.outbox|].to == fiscal.email
      && Text.EndsWith(r.outbox[|db.outbox|].subject, Show(nr))
      && r.outbox[|db.outbox|].body == Rejection(fiscal.nome, rel.mesCompetencia, nr, rel.observacoesAprovador)
  {
    if !NotifiesRejection(db, contratoId, rel) then db
    else
      var fiscal := Lookups.FindUserById(db, rel.fiscalUsuarioId).value;
      var contrato := ContratoRepo.FindContratoById(db, contratoId).value;
      var nr := Col(contrato.cols, "nr_contrato");
      SendEmail(db, fiscal.email, ContractSubject(RejectionPrefix, nr),
                Rejection(fiscal.nome, rel.mesCompetencia, nr, rel.observacoesAprovador))
  }

  /** The checks of `analisar_relatorio` in source order: fields, report, approver, status; `None` when all pass. */
  function AnalysisChecks(db: Store, relatorioId: nat, body: AnaliseForm): (r: Option<Outcome>)
    ensures r.None? <==> AnalysisAccepted(db, relatorioId, body)
    ensures r.Some? ==> r.value.db == db
    ensures body.aprovadorUsuarioId.None? || body.statusId.None? ==> r.Some? && r.value.reply.code == 400
    ensures body.aprovadorUsuarioId.Some? && body.statusId.Some? && relatorioId !in db.relatorios.rows ==>
      r.Some? && r.value.reply.code == 404
    ensures body.aprovadorUsuarioId.Some? && body.statusId.Some? && relatorioId in db.relatorios.rows
            && Lookups.FindUserById(db, body.aprovadorUsuarioId.value).None? ==>
      r.Some? && r.value.reply.code == 404
    ensures body.aprovadorUsuarioId.Some? && body.statusId.Some? && relatorioId in db.relatorios.rows
            && Lookups.FindUserById(db, body.aprovadorUsuarioId.value).Some?
            && body.statusId.value !in db.statusRelatorio.rows ==>
      r.Some? && r.value.reply.code == 404
  {
    if body.aprovadorUsuarioId.None? || body.statusId.None? then
      Some(Fail(db, 400, "Campos obrigatórios: aprovador_usuario_id, status_id"))
    else if RelatorioRepo.FindRelatorioById(db, relatorioId).None? then Some(Fail(db, 404, "Relatório não encontrado"))
    else if Lookups.FindUserById(db, body.aprovadorUsuarioId.value).None? then
      Some(Fail(db, 404, "Usuário aprovador não encontrado"))
    else if Get(db.statusRelatorio, body.statusId.value).None? then
      Some(Fail(db, 404, "Status de relatório não encontrado"))
    else None
  }

  /**
   * `analisar_relatorio`: field checks, then report, approver and status
   * existence, then the update; any existing status is accepted. Exactly one
   * e-mail goes out iff the new status is the 'Rejeitado com Pendência' id
   * (and the fiscal and the URL's contract are still active).
   */
  function AnalisarHandler(db: Store, contratoId: nat, relatorioId: nat, body: AnaliseForm, now: int): (r: Outcome)
    ensures body.aprovadorUsuarioId.None? || body.statusId.None? ==> r.reply.code == 400 && r.db == db
    ensures body.aprovadorUsuarioId.Some? && body.statusId.Some? && relatorioId !in db.relatorios.rows ==>
      r.reply.code == 404 && r.db == db
    ensures body.aprovadorUsuarioId.Some? && body.statusId.Some? && relatorioId in db.relatorios.rows
            && Lookups.FindUserById(db, body.aprovadorUsuarioId.value).None? ==>
      r.reply.code == 404 && r.db == db
    ensures body.aprovadorUsuarioId.Some? && body.statusId.Some? && relatorioId in db.relatorios.rows
            && Lookups.FindUserById(db, body.aprovadorUsuarioId.value).Some?
            && body.statusId.value !in db.statusRelatorio.rows ==>
      r.reply.code == 404 && r.db == db
    ensures r.reply.code == 200 <==> AnalysisAccepted(db, relatorioId, body)
    ensures r.reply.code != 200 ==> r.db == db
    ensures r.reply.code == 200 ==>
      var (upd, db1) := RelatorioRepo.AnaliseRelatorio(db, relatorioId, body.aprovadorUsuarioId.value,
                                                       body.statusId.value, body.observacoesAprovador, now);
      && r.reply == Reply(200, RelatorioJson(upd.value))
      && upd.value.statusId == body.statusId.value
      && SameTables(r.db, db1)
      && (NotifiesRejection(db1, contratoId, upd.value) ==> |r.db.outbox| == |db.outbox| + 1)
      && (!NotifiesRejection(db1, contratoId, upd.value) ==> r.db.outbox == db.outbox)
      && (NotifiesRejection(db1, contratoId, upd.value) ==>
            var fiscal := db.usuarios.rows[upd.value.fiscalUsuarioId];
            var nr := Col(db.contratos.rows[contratoId].cols, "nr_contrato");
            && r.db.outbox[..|db.outbox|] == db.outbox
            && r.db.outbox[|db.outbox|].to == fiscal.email
            && Text.EndsWith(r.db.outbox[|db.outbox|].subject, Show(nr))
            && r.db.outbox[|db.outbox|].body
               == Rejection(fiscal.nome, upd.value.mesCompetencia, nr, body.observacoesAprovador))
  {
    match AnalysisChecks(db, relatorioId, body)
    case Some(o) => o
    case None =>
      var (upd, db1) := RelatorioRepo.AnaliseRelatorio(db, relatorioId, body.aprovadorUsuarioId.value,
                                                       body.statusId.value, body.observacoesAprovador, now);
      Outcome(Reply(200, RelatorioJson(upd.value)), NotifyRejection(db1, contratoId, upd.value))
  }

  /** As written, the rejection check looks the status up by a name the repository cannot answer. */
  const AnalysisLookupError: string :=
    "Erro ao analisar relatório: module 'app.repository.status_relatorio_repo' has no attribute 'find_statusrelatorio_by_name'"

  /**
   * `analisar_relatorio` as the source writes it: the checks and the update
   * run, and the update commits; the status lookup by name that follows
   * raises `AttributeError`, so the route answers 500 with the analysis
   * stored and no e-mail sent.
   */
  function AnalisarHandlerAsWritten(db: Store, contratoId: nat, relatorioId: nat, body: AnaliseForm, now: int)
    : (r: Outcome)
    ensures r.reply.code != 200
    ensures !AnalysisAccepted(db, relatorioId, body) ==> r == AnalisarHandler(db, contratoId, relatorioId, body, now)
    ensures AnalysisAccepted(db, relatorioId, body) ==>
      && r.reply.code == 500
      && r.db.outbox == db.outbox
      && SameTables(r.db, AnalisarHandler(db, contratoId, relatorioId, body, now).db)
  {
    match AnalysisChecks(db, relatorioId, body)
    case Some(o) => o
    case None =>
      var (_, db1) := RelatorioRepo.AnaliseRelatorio(db, relatorioId, body.aprovadorUsuarioId.value,
                                                     body.statusId.value, body.observacoesAprovador, now);
      Fail(db1, 500, AnalysisLookupError)
  }

  /**
   * The discrepancy: an analysis the intended route answers with 200 gets 500
   * from the code as written, although the report row already carries the
   * new status, approver and analysis time.
   */
  lemma AnalisarAsWrittenCommitsThenFails(db: Store, contratoId: nat, relatorioId: nat, body: AnaliseForm, now: int)
    requires AnalysisAccepted(db, relatorioId, body)
    ensures var w := AnalisarHandlerAsWritten(db, contratoId, relatorioId, body, now);
      && w.reply.code == 500
      && w.db.relatorios.rows[relatorioId].statusId == body.statusId.value
      && w.db.relatorios.rows[relatorioId].aprovadorUsuarioId == body.aprovadorUsuarioId
      && w.db.relatorios.rows[relatorioId].dataAnalise == Some(now)
    ensures AnalisarHandler(db, contratoId, relatorioId, body, now).reply.code == 200
  {
  }

  /** `PATCH .../relatorios/<id>/analise` behind `admin_required`. */
  function AnalisarRelatorio(token: AuthDecorators.Token, db: Store, contratoId: nat, relatorioId: nat,
                             body: AnaliseForm, now: int): (r: Outcome)
    ensures r.reply.code == 200 <==>
      token.Claims? && AuthDecorators.AdminAdmits(token.perfil) && AnalysisAccepted(db, relatorioId, body)
    ensures r.reply.code != 200 ==> r.db == db
  {
    AuthDecorators.AdminRequired(token, db, AnalisarHandler(db, contratoId, relatorioId, body, now))
  }

  /** Approving, or any status other than the rejection one, sends nothing. */
  lemma NonRejectionSendsNothing(db: Store, contratoId: nat, relatorioId: nat, body: AnaliseForm, now: int)
    requires AnalysisAccepted(db, relatorioId, body)
    requires FindStatusRelatorioByName(db, RejeitadoComPendencia) != Some(body.statusId.value)
    ensures AnalisarHandler(db, contratoId, relatorioId, body, now).db.outbox == db.outbox
  {
  }

  // ----- resubmission -----

  /**
   * `reenviar_relatorio`: 404 for an unknown report, 400 (store unchanged) on
   * an upload `ValueError`, otherwise a new file row and the reset update,
   * whatever status the report was in.
   */
  function ReenviarHandler(db: Store, contratoId: nat, relatorioId: nat, observacoesFiscal: Option<string>,
                           files: map<string, Upload>, now: int): (r: Outcome)
    ensures relatorioId !in db.relatorios.rows ==> r.reply.code == 404 && r.db == db
    ensures relatorioId in db.relatorios.rows && UploadError(files, "arquivo").Some? ==>
      r.reply.code == 400 && r.db == db
    ensures r.reply.code == 200 <==> relatorioId in db.relatorios.rows && UploadError(files, "arquivo").None?
    ensures r.reply.code == 200 ==>
      var before := db.relatorios.rows[relatorioId];
      && r.reply.payload.RelatorioJson?
      && var after := r.reply.payload.relatorio;
      && after.arquivoId == db.arquivos.nextId
      && after.observacoesFiscal == observacoesFiscal
      && RelatorioRepo.ResetForAnalysis(after)
      && RelatorioRepo.SameIdentity(before, after)
      && r.db.relatorios.rows == db.relatorios.rows[relatorioId := after]
      && var f := files["arquivo"];
      && r.db.arquivos.rows
         == db.arquivos.rows[after.arquivoId := Arquivo(after.arquivoId, f.storedName, f.storedPath, f.mimetype, f.size, contratoId)]
      && r.db.(relatorios := db.relatorios, arquivos := db.arquivos) == db
  {
    if RelatorioRepo.FindRelatorioById(db, relatorioId).None? then Fail(db, 404, "Relatório a ser atualizado não encontrado")
    else
      match HandleFileUpload(db, contratoId, files, "arquivo")
      case Err(msg) => Fail(db, 400, msg)
      case Ok((arquivo, db1)) =>
        var (upd, db2) := RelatorioRepo.UpdateRelatorioReenvio(db1, relatorioId, arquivo.id, observacoesFiscal, now);
        match upd
        case Some(rel) => Outcome(Reply(200, RelatorioJson(rel)), db2)
        case None => Outcome(Reply(200, Payload.Null), db2)
  }

  /** `PUT .../relatorios/<id>` behind `fiscal_required`. */
  function ReenviarRelatorio(token: AuthDecorators.Token, db: Store, contratoId: nat, relatorioId: nat,
                             observacoesFiscal: Option<string>, files: map<string, Upload>, now: int): (r: Outcome)
    ensures r.reply.code == 200 <==>
      && token.Claims? && AuthDecorators.FiscalAdmits(token.perfil)
      && relatorioId in db.relatorios.rows && UploadError(files, "arquivo").None?
    ensures r.reply.code != 200 ==> r.db == db
  {
    AuthDecorators.FiscalRequired(token, db, ReenviarHandler(db, contratoId, relatorioId, observacoesFiscal, files, now))
  }

  // ----- listing -----

  /** As written, the listing calls a repository function that does not exist under that name. */
  const ListError: string :=
    "Erro ao buscar relatórios: module 'app.repository.relatorio_repo' has no attribute 'get_relatorios_by_contrato_id'"

  /**
   * `list_relatorios` as the source writes it: the call to
   * `get_relatorios_by_contrato_id` raises `AttributeError`, which the route's
   * own handler turns into 500, so only an unknown contract gets a useful answer.
   */
  function ListRelatoriosAsWritten(db: Store, contratoId: nat): (r: Outcome)
    ensures r.db == db
    ensures r.reply.code == 404 <==> ContratoRepo.FindContratoById(db, contratoId).None?
    ensures r.reply.code != 404 ==> r.reply.code == 500
  {
    if ContratoRepo.FindContratoById(db, contratoId).None? then Fail(db, 404, ContratoNaoEncontrado)
    else Fail(db, 500, ListError)
  }

  /** `list_relatorios` calling the repository's `find_relatorios_by_contrato_id`, as evidently intended. */
  function ListRelatoriosHandler(db: Store, contratoId: nat): (r: Outcome)
    ensures r.db == db
    ensures r.reply.code == 404 <==> ContratoRepo.FindContratoById(db, contratoId).None?
    ensures r.reply.code != 404 ==>
      && r.reply.code == 200 && r.reply.payload.RelatorioListJson?
      && var listed := r.reply.payload.relatorios;
      && (forall i :: 0 <= i < |listed| ==> listed[i].contratoId == contratoId && listed[i] in db.relatorios.rows.Values)
      && (TableValid(db.relatorios) ==>
            forall k :: k in db.relatorios.rows && db.relatorios.rows[k].contratoId == contratoId ==>
              db.relatorios.rows[k] in listed)
      && (forall i, j :: 0 <= i < j < |listed| ==> listed[i].createdAt >= listed[j].createdAt)
      && (Keyed(db.relatorios, RelatorioPk) ==> forall i, j :: 0 <= i < j < |listed| ==> listed[i].id != listed[j].id)
  {
    if ContratoRepo.FindContratoById(db, contratoId).None? then Fail(db, 404, ContratoNaoEncontrado)
    else Outcome(Reply(200, RelatorioListJson(RelatorioRepo.FindRelatoriosByContratoId(db, contratoId))), db)
  }

  /** `GET /contratos/<id>/relatorios` behind `jwt_required`, with the intended repository call. */
  function ListRelatorios(token: AuthDecorators.Token, db: Store, contratoId: nat): (r: Outcome)
    ensures r.db == db
    ensures r.reply.code == 200 <==> token.Claims? && ContratoRepo.FindContratoById(db, contratoId).Some?
  {
    AuthDecorators.JwtRequired(token, db, ListRelatoriosHandler(db, contratoId))
  }

  /**
   * The discrepancy: for every visible contract the code as written answers
   * 500, where the intended call lists the contract's reports with 200.
   */
  lemma ListRelatoriosAsWrittenFails(db: Store, contratoId: nat)
    requires ContratoRepo.FindContratoById(db, contratoId).Some?
    ensures ListRelatoriosAsWritten(db, contratoId).reply.code == 500
    ensures ListRelatoriosHandler(db, contratoId).reply.code == 200
  {
  }
}

=== FILE: scheduler.dfy ===
/**
 * The daily deadline sweep `check_deadlines`: a read-only pass over the
 * pendências that produces reminder e-mails for those due in exactly 15, 5,
 * 3 or 0 days. Dates are day numbers; the cron trigger is left out.
 */
module Scheduler {
  import opened Wrappers
  import opened Db
  import Text
  import Lookups
  import Sorting

  /** The days before the deadline on which a reminder goes out. */
  const ReminderOffsets: seq<int> := [15, 5, 3, 0]

  /** The status name the sweep's query selects. */
  const PendenteStatus: string := "Pendente"

  /** How the body phrases the time left; only offsets from `ReminderOffsets` reach here. */
  function PrazoText(dias: int): (r: string)
    requires dias >= 0
    ensures dias == 0 ==> r == "expira HOJE"
    ensures dias > 0 ==>
      && |r| >= 17 && r[..10] == "expira em " && Text.EndsWith(r, " dia(s)")
      && r[10..|r| - 7] == Text.IntToString(dias)
  {
    if dias > 0 then "expira em " + Text.IntToString(dias) + " dia(s)" else "expira HOJE"
  }

  /** The fixed start of a reminder's subject. */
  const ReminderPrefix: string := "Lembrete de Prazo: Pendência do Contrato "

  /** The pendência's status row is named exactly 'Pendente'. */
  predicate IsPendente(db: Store, p: Pendencia) {
    p.statusPendenciaId in db.statusPendencia.rows && db.statusPendencia.rows[p.statusPendenciaId] == PendenteStatus
  }

  /**
   * The user the query joins through the contract's primary `fiscal_id`;
   * neither the contract nor the user needs to be active.
   */
  function PrimaryFiscal(db: Store, p: Pendencia): (r: Option<Usuario>)
    ensures r.Some? ==> p.contratoId in db.contratos.rows
    ensures r.Some? ==>
      var fid := Col(db.contratos.rows[p.contratoId].cols, "fiscal_id");
      && fid.Some? && Lookups.AsId(fid.value).Ok?
      && Get(db.usuarios, Lookups.AsId(fid.value).value) == r
  {
    if p.contratoId !in db.contratos.rows then None
    else
      match Col(db.contratos.rows[p.contratoId].cols, "fiscal_id")
      case None => None
      case Some(v) =>
        match Lookups.AsId(v)
        case Err(_) => None
        case Ok(u) => Get(db.usuarios, u)
  }

  /** A pendência the sweep reminds about on `today`. */
  predicate Due(db: Store, p: Pendencia, today: int) {
    IsPendente(db, p) && PrimaryFiscal(db, p).Some? && p.dataPrazo - today in ReminderOffsets
  }

  /** The reminder one row of the query yields, if its deadline is at a reminder offset. */
  function ReminderFor(db: Store, p: Pendencia, today: int): (r: Option<Email>)
    ensures r.Some? <==> Due(db, p, today)
    ensures r.Some? ==>
      var fiscal := PrimaryFiscal(db, p).value;
      var nr := Col(db.contratos.rows[p.contratoId].cols, "nr_contrato");
      && r.value.to == fiscal.email
      && Text.EndsWith(r.value.subject, Show(nr))
      && r.value.body == Reminder(fiscal.nome, nr, p.descricao, p.dataPrazo, PrazoText(p.dataPrazo - today))
  {
    if !IsPendente(db, p) then None
    else
      match PrimaryFiscal(db, p)
      case None => None
      case Some(fiscal) =>
        var dias := p.dataPrazo - today;
        if dias !in ReminderOffsets then None
        else
          var nr := Col(db.contratos.rows[p.contratoId].cols, "nr_contrato");
          Some(Email(fiscal.email, ContractSubject(ReminderPrefix, nr), Reminder(fiscal.nome, nr, p.descricao, p.dataPrazo, PrazoText(dias))))
  }

  /** `ReminderFor` as a row function, for `Sorting.Collect`. */
  function ReminderOn(db: Store, today: int): Pendencia -> Option<Email> {
    (p: Pendencia) => ReminderFor(db, p, today)
  }

  /** The reference for a run: the positions of the due rows, ascending, each once. */
  function DueIndices(db: Store, ps: seq<Pendencia>, today: int): (idx: seq<nat>)
    ensures forall k :: 0 <= k < |idx| ==> idx[k] < |ps| && Due(db, ps[idx[k]], today)
    ensures forall i :: 0 <= i < |ps| && Due(db, ps[i], today) ==> i in idx
    ensures forall j, k :: 0 <= j < k < |idx| ==> idx[j] < idx[k]
    ensures |idx| <= |ps|
  {
    Sorting.Positions(ps, Sorting.Defined(ReminderOn(db, today)))
  }

  /**
   * The loop over the query's rows: the k-th reminder is the one of the k-th
   * due row, so each due row gets exactly one reminder, in row order, and
   * nothing else is sent.
   */
  function Sweep(db: Store, ps: seq<Pendencia>, today: int): (r: seq<Email>)
    ensures var idx := DueIndices(db, ps, today);
      && |r| == |idx|
      && forall k :: 0 <= k < |r| ==> ReminderFor(db, ps[idx[k]], today) == Some(r[k])
  {
    Sorting.Collect(ps, ReminderOn(db, today))
  }

  /**
   * The reminders of one run, over the pendências in id order: one per due
   * pendência, in that order, and no other. `SweepSound` and `SweepComplete`
   * state the same in terms of the table's rows.
   */
  function DueReminders(db: Store, today: int): (r: seq<Email>)
    ensures var ps := Rows(db.pendencias);
      var idx := DueIndices(db, ps, today);
      && |r| == |idx|
      && forall k :: 0 <= k < |r| ==> ReminderFor(db, ps[idx[k]], today) == Some(r[k])
  {
    Sweep(db, Rows(db.pendencias), today)
  }

  /** `e` is the reminder of some due pendência stored in the table. */
  predicate RemindsDuePendencia(db: Store, today: int, e: Email) {
    exists p :: p in db.pendencias.rows.Values && Due(db, p, today) && ReminderFor(db, p, today) == Some(e)
  }

  /** Every reminder of a run comes from a due pendência of the table, and there are no more than rows. */
  lemma SweepSound(db: Store, today: int)
    ensures var r := DueReminders(db, today);
      && |r| <= |Rows(db.pendencias)|
      && forall k :: 0 <= k < |r| ==> RemindsDuePendencia(db, today, r[k])
  {
    var ps := Rows(db.pendencias);
    var r := DueReminders(db, today);
    var idx := DueIndices(db, ps, today);
    forall k | 0 <= k < |r| ensures RemindsDuePendencia(db, today, r[k]) {
      var p := ps[idx[k]];
      assert p in db.pendencias.rows.Values && Due(db, p, today) && ReminderFor(db, p, today) == Some(r[k]);
    }
  }

  /** A due row's reminder is among those the sweep sends. */
  lemma SweepSendsDueRow(db: Store, ps: seq<Pendencia>, today: int, i: nat)
    requires i < |ps| && Due(db, ps[i], today)
    ensures ReminderFor(db, ps[i], today).value in Sweep(db, ps, today)
  {
    var idx := DueIndices(db, ps, today);
    var j :| 0 <= j < |idx| && idx[j] == i;
    assert Sweep(db, ps, today)[j] == ReminderFor(db, ps[i], today).value;
  }

  /** Every due pendência of a well-formed table gets its reminder. */
  lemma SweepComplete(db: Store, today: int)
    requires TableValid(db.pendencias)
    ensures var r := DueReminders(db, today);
      forall k :: k in db.pendencias.rows && Due(db, db.pendencias.rows[k], today) ==>
        ReminderFor(db, db.pendencias.rows[k], today).value in r
  {
    var ps := Rows(db.pendencias);
    var r := DueReminders(db, today);
    assert r == Sweep(db, ps, today);
    forall k | k in db.pendencias.rows && Due(db, db.pendencias.rows[k], today)
      ensures ReminderFor(db, db.pendencias.rows[k], today).value in r
    {
      var i :| 0 <= i < |ps| && ps[i] == db.pendencias.rows[k];
      SweepSendsDueRow(db, ps, today, i);
    }
  }

  /** `check_deadlines`: the reminders are appended to the outbox and no table changes. */
  function CheckDeadlines(db: Store, today: int): (r: Store)
    ensures SameTables(r, db)
    ensures |r.outbox| >= |db.outbox| && r.outbox[..|db.outbox|] == db.outbox
    ensures var ps := Rows(db.pendencias);
      var idx := DueIndices(db, ps, today);
      && |r.outbox| == |db.outbox| + |idx|
      && forall k :: 0 <= k < |idx| ==> ReminderFor(db, ps[idx[k]], today) == Some(r.outbox[|db.outbox| + k])
    ensures |r.outbox| - |db.outbox| <= |Rows(db.pendencias)|
  {
    db.(outbox := db.outbox + DueReminders(db, today))
  }

  /** A reminder goes out exactly at 15, 5, 3 and 0 days left; overdue and other offsets stay silent. */
  lemma ReminderDays(db: Store, p: Pendencia, today: int)
    requires IsPendente(db, p) && PrimaryFiscal(db, p).Some?
    ensures ReminderFor(db, p, today).Some? <==>
      p.dataPrazo == today + 15 || p.dataPrazo == today + 5 || p.dataPrazo == today + 3 || p.dataPrazo == today
    ensures p.dataPrazo < today ==> ReminderFor(db, p, today).None?
  {
  }

  /** Only 'Pendente' counts: a concluded or cancelled pendência is never reminded about. */
  lemma OnlyPendente(db: Store, p: Pendencia, today: int)
    requires p.statusPendenciaId in db.statusPendencia.rows
    requires db.statusPendencia.rows[p.statusPendenciaId] in {"Concluída", "Cancelada"}
    ensures ReminderFor(db, p, today).None?
  {
  }

  /** The substitute fiscal plays no part: changing it changes no reminder. */
  lemma SubstituteNeverReminded(db: Store, p: Pendencia, today: int, v: Value)
    requires p.contratoId in db.contratos.rows
    ensures var c := db.contratos.rows[p.contratoId];
      var db' := db.(contratos := db.contratos.(rows := db.contratos.rows[p.contratoId := c.(cols := c.cols["fiscal_substituto_id" := v])]));
      ReminderFor(db', p, today) == ReminderFor(db, p, today)
  {
    var c := db.contratos.rows[p.contratoId];
    var cols' := c.cols["fiscal_substituto_id" := v];
    assert Col(cols', "fiscal_id") == Col(c.cols, "fiscal_id");
    assert Col(cols', "nr_contrato") == Col(c.cols, "nr_contrato");
  }
}

=== FILE: seeder.dfy ===
/**
 * `seed_data`: fills each empty lookup table with its fixed names, in list
 * order, and creates the administrator account when no user has its e-mail.
 * Everything happens in one transaction: a failure leaves the store as it was.
 */
module Seeder {
  import opened Wrappers
  import opened Db
  import Lookups
  import RelatorioRepo

  const Perfis: seq<string> := ["Administrador", "Gestor", "Fiscal"]
  const Modalidades: seq<string> := [
    "Pregão", "Concorrência", "Concurso", "Leilão", "Diálogo Competitivo",
    "Dispensa de Licitação", "Inexigibilidade de Licitação", "Credenciamento"]
  const StatusContrato: seq<string> := ["Vigente", "Encerrado", "Rescindido", "Suspenso", "Aguardando Publicação"]
  const StatusRelatorio: seq<string> := ["Pendente de Análise", "Aprovado", "Rejeitado com Pendência"]
  const StatusPendencia: seq<string> := ["Pendente", "Concluída", "Cancelada"]

  const AdminPerfil: string := "Administrador"
  const AdminNome: string := "Administrador do Sistema"
  const AdminCpf: string := "00000000000"

  /** One `INSERT` per name, in order: the names land on consecutive ids from `nextId`. */
  function InsertAll(t: Table<string>, names: seq<string>): (r: Table<string>)
    ensures r.nextId == t.nextId + |names|
    ensures forall k :: k in r.rows <==> k in t.rows || t.nextId <= k < t.nextId + |names|
    ensures forall i :: 0 <= i < |names| ==> r.rows[t.nextId + i] == names[i]
    ensures forall k :: k in t.rows && k < t.nextId ==> r.rows[k] == t.rows[k]
    ensures TableValid(t) ==> TableValid(r)
    decreases |names|
  {
    if |names| == 0 then t
    else
      var (_, t1) := Insert(t, names[0]);
      var r := InsertAll(t1, names[1..]);
      forall i | 1 <= i < |names| ensures r.rows[t.nextId + i] == names[i] {
        assert names[1..][i - 1] == names[i] && t1.nextId + (i - 1) == t.nextId + i;
      }
      r
  }

  /** `seed_table`: the names go in only when the table has no row at all. */
  function SeedTable(t: Table<string>, names: seq<string>): (r: Table<string>)
    ensures |t.rows| != 0 ==> r == t
    ensures |t.rows| == 0 ==>
      && r.nextId == t.nextId + |names|
      && (forall k :: k in r.rows <==> t.nextId <= k < t.nextId + |names|)
      && forall i :: 0 <= i < |names| ==> r.rows[t.nextId + i] == names[i]
    ensures TableValid(t) ==> TableValid(r)
    ensures |names| > 0 ==> |r.rows| != 0
  {
    if |t.rows| == 0 then
      var r := InsertAll(t, names);
      assert |names| > 0 ==> t.nextId in r.rows;
      r
    else t
  }

  /** Some user, active or not, has this e-mail: the administrator's lookup has no `ativo` filter. */
  predicate EmailTaken(db: Store, email: string) {
    exists k :: k in db.usuarios.rows && db.usuarios.rows[k].email == email
  }

  /** The five lookup tables after `seed_table`, in the order `seed_data` seeds them. */
  function SeedLookups(db: Store): (r: Store)
    ensures r.perfis == SeedTable(db.perfis, Perfis)
    ensures r.modalidades == SeedTable(db.modalidades, Modalidades)
    ensures r.statusContrato == SeedTable(db.statusContrato, StatusContrato)
    ensures r.statusRelatorio == SeedTable(db.statusRelatorio, StatusRelatorio)
    ensures r.statusPendencia == SeedTable(db.statusPendencia, StatusPendencia)
    ensures r.(perfis := db.perfis, modalidades := db.modalidades, statusContrato := db.statusContrato,
               statusRelatorio := db.statusRelatorio, statusPendencia := db.statusPendencia) == db
  {
    db.(perfis := SeedTable(db.perfis, Perfis),
        modalidades := SeedTable(db.modalidades, Modalidades),
        statusContrato := SeedTable(db.statusContrato, StatusContrato),
        statusRelatorio := SeedTable(db.statusRelatorio, StatusRelatorio),
        statusPendencia := SeedTable(db.statusPendencia, StatusPendencia))
  }

  /**
   * `seed_data()` with `ADMIN_EMAIL` and `ADMIN_PASSWORD` from the
   * environment; the password is None when the variable is unset. With no
   * user holding `adminEmail`, the admin is created with the 'Administrador'
   * perfil. Hashing an unset password raises, and so does the perfil lookup
   * when that perfil is missing; either way the rollback undoes every insert
   * of the run, the lookup tables' included.
   */
  function SeedData(db: Store, adminEmail: string, adminPassword: Option<string>): (r: Store)
    ensures EmailTaken(db, adminEmail) ==> r == SeedLookups(db)
    ensures !EmailTaken(db, adminEmail) && adminPassword.None? ==> r == db
    ensures !EmailTaken(db, adminEmail) && Lookups.FindIdByName(SeedLookups(db).perfis, AdminPerfil).None? ==> r == db
    ensures !EmailTaken(db, adminEmail) && adminPassword.Some?
            && Lookups.FindIdByName(SeedLookups(db).perfis, AdminPerfil).Some? ==>
      var seeded := SeedLookups(db);
      && db.usuarios.nextId in r.usuarios.rows
      && var admin := r.usuarios.rows[db.usuarios.nextId];
      && r.(usuarios := db.usuarios) == seeded
      && r.usuarios.rows == db.usuarios.rows[db.usuarios.nextId := admin]
      && admin.email == adminEmail && admin.nome == AdminNome && admin.cpf == AdminCpf && admin.ativo
      && admin.perfilId in seeded.perfis.rows && seeded.perfis.rows[admin.perfilId] == AdminPerfil
    ensures r != db ==> EmailTaken(r, adminEmail)
  {
    var seeded := SeedLookups(db);
    if EmailTaken(db, adminEmail) then seeded
    else if adminPassword.None? then db
    else
      match Lookups.FindIdByName(seeded.perfis, AdminPerfil)
      case None => db
      case Some(pid) =>
        var (id, t) := Insert(db.usuarios, Usuario(db.usuarios.nextId, AdminNome, adminEmail, AdminCpf, pid, true));
        seeded.(usuarios := t)
  }

  /** A second run inserts nothing. */
  lemma SeedIdempotent(db: Store, adminEmail: string, adminPassword: Option<string>)
    ensures SeedData(SeedData(db, adminEmail, adminPassword), adminEmail, adminPassword)
            == SeedData(db, adminEmail, adminPassword)
  {
    var once := SeedData(db, adminEmail, adminPassword);
    if once != db {
      assert |once.perfis.rows| != 0 && |once.modalidades.rows| != 0 && |once.statusContrato.rows| != 0;
      assert |once.statusRelatorio.rows| != 0 && |once.statusPendencia.rows| != 0;
      assert SeedLookups(once) == once;
    }
  }

  /** A lookup table that already has rows is left alone, even when it lacks some of the names. */
  lemma PopulatedTableUntouched(db: Store, adminEmail: string, adminPassword: Option<string>)
    requires |db.statusRelatorio.rows| != 0
    ensures SeedData(db, adminEmail, adminPassword).statusRelatorio == db.statusRelatorio
  {
  }

  /** Seeding a fresh table puts the first occurrence of a name at id `1 + index`. */
  lemma FreshTableLookup(t: Table<string>, names: seq<string>, k: nat)
    requires TableValid(t) && |t.rows| == 0 && t.nextId == 1
    requires k < |names| && forall j :: 0 <= j < k ==> names[j] != names[k]
    ensures Lookups.FindIdByName(SeedTable(t, names), names[k]) == Some(1 + k)
  {
    SeededLookup(SeedTable(t, names), names, k);
  }

  /** In a table holding `names` at ids 1, 2, ..., the first occurrence of a name is found at `1 + index`. */
  lemma SeededLookup(r: Table<string>, names: seq<string>, k: nat)
    requires TableValid(r)
    requires forall j :: j in r.rows <==> 1 <= j < 1 + |names|
    requires forall i :: 0 <= i < |names| ==> r.rows[1 + i] == names[i]
    requires k < |names| && forall j :: 0 <= j < k ==> names[j] != names[k]
    ensures Lookups.FindIdByName(r, names[k]) == Some(1 + k)
  {
    assert r.rows[1 + k] == names[k];
    forall j | j < 1 + k && j in r.rows ensures r.rows[j] != names[k] {
      var i := j - 1;
      assert r.rows[1 + i] == names[i];
    }
    Lookups.FindLowest(r, names[k], 1 + k);
  }

  /** Lookup table `t` has never been written: no rows and the id sequence at its start. */
  predicate Fresh(t: Table<string>) {
    TableValid(t) && |t.rows| == 0 && t.nextId == 1
  }

  /**
   * On a freshly migrated database the first report status is 'Pendente de
   * Análise', the id the resubmission reset writes, and 'Concluída' is the
   * second pendência status, whenever the run commits: the e-mail is taken or
   * a password is set.
   */
  lemma FreshSeedStatusIds(db: Store, adminEmail: string, adminPassword: Option<string>)
    requires Fresh(db.perfis) && Fresh(db.statusRelatorio) && Fresh(db.statusPendencia)
    ensures EmailTaken(db, adminEmail) || adminPassword.Some? ==>
      var r := SeedData(db, adminEmail, adminPassword);
      && Lookups.FindIdByName(r.statusRelatorio, StatusRelatorio[0]) == Some(RelatorioRepo.StatusPendenteAnaliseId)
      && Lookups.FindIdByName(r.statusPendencia, StatusPendencia[1]) == Some(2)
  {
    SeededStatusTables(db, adminEmail, adminPassword);
    PendenteDeAnaliseFirst(db.statusRelatorio);
    ConcluidaSecond(db.statusPendencia);
  }

  /** In a freshly seeded report-status table, 'Pendente de Análise' is found at id 1. */
  lemma PendenteDeAnaliseFirst(t: Table<string>)
    requires Fresh(t)
    ensures Lookups.FindIdByName(SeedTable(t, StatusRelatorio), StatusRelatorio[0]) == Some(RelatorioRepo.StatusPendenteAnaliseId)
  {
    FreshTableLookup(t, StatusRelatorio, 0);
  }

  /** In a freshly seeded pendência-status table, 'Concluída' is found at id 2. */
  lemma ConcluidaSecond(t: Table<string>)
    requires Fresh(t)
    ensures Lookups.FindIdByName(SeedTable(t, StatusPendencia), StatusPendencia[1]) == Some(2)
  {
    assert StatusPendencia[0] != StatusPendencia[1] by { assert StatusPendencia[0][1] != StatusPendencia[1][1]; }
    FreshTableLookup(t, StatusPendencia, 1);
  }

  /** With a fresh perfil table only an unset password rolls back, so otherwise both status tables come out seeded. */
  lemma SeededStatusTables(db: Store, adminEmail: string, adminPassword: Option<string>)
    requires Fresh(db.perfis)
    ensures EmailTaken(db, adminEmail) || adminPassword.Some? ==>
      && SeedData(db, adminEmail, adminPassword).statusRelatorio == SeedTable(db.statusRelatorio, StatusRelatorio)
      && SeedData(db, adminEmail, adminPassword).statusPendencia == SeedTable(db.statusPendencia, StatusPendencia)
  {
    FreshTableLookup(db.perfis, Perfis, 0);
  }

  /** With a fresh perfil table and no account for the e-mail, the administrator gets perfil 1, 'Administrador'. */
  lemma FreshSeedAdmin(db: Store, adminEmail: string, adminPassword: Option<string>)
    requires Fresh(db.perfis) && !EmailTaken(db, adminEmail)
    ensures adminPassword.Some? ==>
      var r := SeedData(db, adminEmail, adminPassword);
      && db.usuarios.nextId in r.usuarios.rows
      && r.usuarios.rows[db.usuarios.nextId].perfilId == 1
      && r.usuarios.rows[db.usuarios.nextId].email == adminEmail
  {
    FreshTableLookup(db.perfis, Perfis, 0);
  }

  /** With `ADMIN_PASSWORD` unset, seeding an empty database leaves it empty: even the lookup tables are rolled back. */
  lemma UnsetPasswordSeedsNothing(adminEmail: string)
    ensures SeedData(EmptyStore(), adminEmail, None) == EmptyStore()
  {
    var e := EmptyStore();
    assert !EmailTaken(e, adminEmail);
  }

  /** The empty database qualifies for both. */
  lemma EmptyStoreIsFresh(adminEmail: string)
    ensures Fresh(EmptyStore().perfis) && Fresh(EmptyStore().statusRelatorio) && Fresh(EmptyStore().statusPendencia)
    ensures !EmailTaken(EmptyStore(), adminEmail)
  {
  }
}

=== FILE: sorting.dfy ===
/**
 * Query results as sequences: an SQL `ORDER BY k ASC` is modelled as a stable
 * insertion sort on an integer key (`DESC` sorts on the negated key), a
 * `WHERE` as a filter, and a loop over the rows as a collection of the values
 * it produces.
 */
module Sorting {
  import opened Wrappers

  /** `s` is in non-decreasing order of `key`. */
  predicate SortedBy<T>(s: seq<T>, key: T -> int) {
    forall i, j :: 0 <= i < j < |s| ==> key(s[i]) <= key(s[j])
  }

  /** Inserts `x` into the sorted `s` before the first element with a larger key. */
  function InsertByKey<T>(x: T, s: seq<T>, key: T -> int): (r: seq<T>)
    requires SortedBy(s, key)
    ensures SortedBy(r, key)
    ensures multiset(r) == multiset(s) + multiset{x}
    ensures |r| == |s| + 1
    ensures forall k :: 0 <= k < |r| ==> r[k] == x || r[k] in s
  {
    if |s| == 0 then [x]
    else if key(x) <= key(s[0]) then
      assert s == [s[0]] + s[1..];
      [x] + s
    else
      var rest := InsertByKey(x, s[1..], key);
      assert s == [s[0]] + s[1..];
      LowerBound(x, s, rest, key);
      [s[0]] + rest
  }

  /** Helper: the head of a sorted `s` bounds every element drawn from `s[1..]` or a larger `x`. */
  lemma LowerBound<T>(x: T, s: seq<T>, rest: seq<T>, key: T -> int)
    requires |s| > 0 && SortedBy(s, key) && key(s[0]) < key(x)
    requires forall k :: 0 <= k < |rest| ==> rest[k] == x || rest[k] in s[1..]
    ensures forall k :: 0 <= k < |rest| ==> key(s[0]) <= key(rest[k])
  {
    forall k | 0 <= k < |rest| ensures key(s[0]) <= key(rest[k]) {
      if rest[k] != x {
        var j :| 0 <= j < |s[1..]| && s[1..][j] == rest[k];
        assert s[j + 1] == rest[k];
      }
    }
  }

  /** The rows of `s` ordered by `key`; rows with equal keys keep their relative order. */
  function SortByKey<T>(s: seq<T>, key: T -> int): (r: seq<T>)
    ensures SortedBy(r, key)
    ensures multiset(r) == multiset(s)
    ensures |r| == |s|
  {
    if |s| == 0 then []
    else
      assert s == s[..|s| - 1] + [s[|s| - 1]];
      InsertByKey(s[|s| - 1], SortByKey(s[..|s| - 1], key), key)
  }

  /** Sorting keeps exactly the elements it was given. */
  lemma SortKeepsMembers<T>(s: seq<T>, key: T -> int, x: T)
    ensures x in SortByKey(s, key) <==> x in s
  {
    var r := SortByKey(s, key);
    assert x in r <==> x in multiset(r);
    assert x in s <==> x in multiset(s);
  }

  /** Sorting keeps the members of `s`, and with them any property they all have. */
  lemma SortKeepsProperty<T>(s: seq<T>, key: T -> int, p: T -> bool)
    requires forall k :: 0 <= k < |s| ==> p(s[k])
    ensures forall x :: x in s ==> x in SortByKey(s, key)
    ensures forall k :: 0 <= k < |SortByKey(s, key)| ==> SortByKey(s, key)[k] in s && p(SortByKey(s, key)[k])
  {
    var r := SortByKey(s, key);
    forall x | x in s ensures x in r {
      SortKeepsMembers(s, key, x);
    }
    forall k | 0 <= k < |r| ensures r[k] in s && p(r[k]) {
      SortKeepsMembers(s, key, r[k]);
    }
  }

  /** `WHERE` then `ORDER BY`: the result holds exactly the elements of `s` that satisfy `p`. */
  lemma FilterThenSort<T>(s: seq<T>, p: T -> bool, key: T -> int)
    ensures var r := SortByKey(Filter(s, p), key);
      && (forall k :: 0 <= k < |r| ==> r[k] in s && p(r[k]))
      && (forall k :: 0 <= k < |s| && p(s[k]) ==> s[k] in r)
  {
    var f := Filter(s, p);
    SortKeepsProperty(f, key, p);
  }

  /** A `WHERE` clause: the elements of `s` satisfying `p`, in their original order. */
  function Filter<T(==)>(s: seq<T>, p: T -> bool): (r: seq<T>)
    ensures forall k :: 0 <= k < |r| ==> r[k] in s && p(r[k])
    ensures forall k :: 0 <= k < |s| && p(s[k]) ==> s[k] in r
    ensures multiset(r) <= multiset(s)
    ensures |r| <= |s|
  {
    if |s| == 0 then []
    else
      assert s == [s[0]] + s[1..];
      (if p(s[0]) then [s[0]] else []) + Filter(s[1..], p)
  }

  // ----- distinct rows -----

  /** No two elements of `s` agree on `f`, e.g. no row is listed twice when `f` is its key. */
  predicate DistinctBy<T>(s: seq<T>, f: T -> int) {
    forall i, j :: 0 <= i < j < |s| ==> f(s[i]) != f(s[j])
  }

  /** A `WHERE` clause never repeats a row. */
  lemma {:induction false} FilterKeepsDistinct<T>(s: seq<T>, p: T -> bool, f: T -> int)
    requires DistinctBy(s, f)
    ensures DistinctBy(Filter(s, p), f)
    decreases |s|
  {
    if |s| > 0 {
      assert DistinctBy(s[1..], f) by {
        forall i, j | 0 <= i < j < |s| - 1 ensures f(s[1..][i]) != f(s[1..][j]) {
          assert s[1..][i] == s[i + 1] && s[1..][j] == s[j + 1];
        }
      }
      FilterKeepsDistinct(s[1..], p, f);
      var rest := Filter(s[1..], p);
      if p(s[0]) {
        forall k | 0 <= k < |rest| ensures f(rest[k]) != f(s[0]) {
          var j :| 0 <= j < |s[1..]| && s[1..][j] == rest[k];
          assert s[j + 1] == rest[k];
        }
        ConsDistinct(s[0], rest, f);
        assert Filter(s, p) == [s[0]] + rest;
      } else {
        assert Filter(s, p) == rest;
      }
    }
  }

  /** Putting an element whose `f` is new in front of a sequence without repeats keeps it without repeats. */
  lemma ConsDistinct<T>(x: T, s: seq<T>, f: T -> int)
    requires DistinctBy(s, f)
    requires forall k :: 0 <= k < |s| ==> f(s[k]) != f(x)
    ensures DistinctBy([x] + s, f)
  {
    var r := [x] + s;
    forall i, j | 0 <= i < j < |r| ensures f(r[i]) != f(r[j]) {
      assert r[j] == s[j - 1];
      if i > 0 {
        assert r[i] == s[i - 1];
      }
    }
  }

  /** Inserting an element whose `f` is new into a listing without repeats gives one without repeats. */
  lemma {:induction false} InsertKeepsDistinct<T>(x: T, s: seq<T>, key: T -> int, f: T -> int)
    requires SortedBy(s, key) && DistinctBy(s, f)
    requires forall k :: 0 <= k < |s| ==> f(s[k]) != f(x)
    ensures DistinctBy(InsertByKey(x, s, key), f)
    decreases |s|
  {
    if |s| > 0 && key(x) > key(s[0]) {
      InsertKeepsDistinct(x, s[1..], key, f);
      var rest := InsertByKey(x, s[1..], key);
      forall k | 0 <= k < |rest| ensures f(rest[k]) != f(s[0]) {
        if rest[k] != x {
          var j :| 0 <= j < |s[1..]| && s[1..][j] == rest[k];
          assert s[j + 1] == rest[k];
        }
      }
    }
  }

  /** An `ORDER BY` never repeats a row. */
  lemma {:induction false} SortKeepsDistinct<T>(s: seq<T>, key: T -> int, f: T -> int)
    requires DistinctBy(s, f)
    ensures DistinctBy(SortByKey(s, key), f)
    decreases |s|
  {
    if |s| > 0 {
      var init := s[..|s| - 1];
      var last := s[|s| - 1];
      SortKeepsDistinct(init, key, f);
      var sorted := SortByKey(init, key);
      forall k | 0 <= k < |sorted| ensures f(sorted[k]) != f(last) {
        SortKeepsMembers(init, key, sorted[k]);
        var j :| 0 <= j < |init| && init[j] == sorted[k];
        assert init[j] == s[j];
      }
      InsertKeepsDistinct(last, sorted, key, f);
    }
  }

  /** `WHERE` then `ORDER BY` over rows without repeats lists each row at most once. */
  lemma FilterThenSortDistinct<T>(s: seq<T>, p: T -> bool, key: T -> int, f: T -> int)
    requires DistinctBy(s, f)
    ensures DistinctBy(SortByKey(Filter(s, p), key), f)
  {
    FilterKeepsDistinct(s, p, f);
    SortKeepsDistinct(Filter(s, p), key, f);
  }

  /** The positions of the elements of `s` satisfying `p`, ascending, each once. */
  function Positions<T>(s: seq<T>, p: T -> bool): (idx: seq<nat>)
    ensures |idx| <= |s|
    ensures forall k :: 0 <= k < |idx| ==> idx[k] < |s| && p(s[idx[k]])
    ensures forall i :: 0 <= i < |s| && p(s[i]) ==> i in idx
    ensures forall j, k :: 0 <= j < k < |idx| ==> idx[j] < idx[k]
  {
    if |s| == 0 then []
    else
      var n := |s| - 1;
      var rest := Positions(s[..n], p);
      assert forall i :: 0 <= i < n ==> s[i] == s[..n][i];
      rest + (if p(s[n]) then [n] else [])
  }

  /** Where `f` yields a value, as a predicate for `Positions`. */
  function Defined<T, U>(f: T -> Option<U>): T -> bool {
    (x: T) => f(x).Some?
  }

  /**
   * A loop over `s` that appends `f`'s value whenever there is one: the k-th
   * result comes from the k-th position where `f` is defined, and nothing else
   * is produced.
   */
  function Collect<T, U>(s: seq<T>, f: T -> Option<U>): (r: seq<U>)
    ensures var idx := Positions(s, Defined(f));
      && |r| == |idx|
      && forall k :: 0 <= k < |r| ==> f(s[idx[k]]) == Some(r[k])
  {
    if |s| == 0 then []
    else
      var n := |s| - 1;
      var idx := Positions(s[..n], Defined(f));
      assert Positions(s, Defined(f)) == idx + (if Defined(f)(s[n]) then [n] else []);
      var rest := Collect(s[..n], f);
      assert forall k :: 0 <= k < |idx| ==> f(s[idx[k]]) == Some(rest[k]) by {
        forall k | 0 <= k < |idx| ensures f(s[idx[k]]) == Some(rest[k]) {
          assert s[idx[k]] == s[..n][idx[k]];
        }
      }
      rest + (match f(s[n]) case Some(e) => [e] case None => [])
  }
}

=== FILE: status_pendencia_repo.dfy ===
/** The pendência status table and the status cascade used by report submission. */
module StatusPendenciaRepo {
  import opened Wrappers
  import opened Db
  import Lookups

  /** `find_statuspendencia_by_id`: the status name stored under `id`; no active filter exists. */
  function FindStatusPendenciaById(db: Store, id: int): (r: Option<string>)
    ensures r.Some? <==> id >= 0 && id as nat in db.statusPendencia.rows
    ensures r.Some? ==> r.value == db.statusPendencia.rows[id as nat]
  {
    Get(db.statusPendencia, id)
  }

  /** `find_statuspendencia_by_name`: the id of a row whose name matches exactly, or None. */
  function FindStatusPendenciaByName(db: Store, name: string): (r: Option<nat>)
    ensures r.Some? ==> r.value in db.statusPendencia.rows && db.statusPendencia.rows[r.value] == name
    ensures TableValid(db.statusPendencia) && r.None? ==>
      forall k :: k in db.statusPendencia.rows ==> db.statusPendencia.rows[k] != name
  {
    Lookups.FindIdByName(db.statusPendencia, name)
  }

  /**
   * `update_pendencia_status`: overwrite the status and touch `updated_at`,
   * whatever the current status is. An unknown id updates no row and
   * `RETURNING *` yields None.
   */
  function UpdatePendenciaStatus(db: Store, pendenciaId: int, statusId: nat, now: int): (r: (Option<Pendencia>, Store))
    ensures r.0.None? <==> !(pendenciaId >= 0 && pendenciaId as nat in db.pendencias.rows)
    ensures r.0.None? ==> r.1 == db
    ensures r.0.Some? ==>
      var id := pendenciaId as nat;
      && r.1.(pendencias := db.pendencias) == db
      && r.1.pendencias.nextId == db.pendencias.nextId
      && r.1.pendencias.rows.Keys == db.pendencias.rows.Keys
      && (forall k :: k in db.pendencias.rows && k != id ==> r.1.pendencias.rows[k] == db.pendencias.rows[k])
      && r.1.pendencias.rows[id] == r.0.value
      && r.0.value.statusPendenciaId == statusId
      && r.0.value.updatedAt == now
      && r.0.value.(statusPendenciaId := db.pendencias.rows[id].statusPendenciaId,
                    updatedAt := db.pendencias.rows[id].updatedAt) == db.pendencias.rows[id]
  {
    match Get(db.pendencias, pendenciaId)
    case None => (None, db)
    case Some(p) =>
      var p' := p.(statusPendenciaId := statusId, updatedAt := now);
      (Some(p'), db.(pendencias := db.pendencias.(rows := db.pendencias.rows[pendenciaId as nat := p'])))
  }
}

=== FILE: text.dfy ===
/** String helpers: ASCII lower-casing, the last-dot split of a file name, decimal rendering. */
module Text {
  import opened Wrappers

  /** Python's `str.lower()` restricted to ASCII: only 'A'..'Z' change. */
  function LowerChar(c: char): (r: char)
    ensures 'A' <= c <= 'Z' ==> r as int == c as int + 32
    ensures !('A' <= c <= 'Z') ==> r == c
  {
    if 'A' <= c <= 'Z' then (c as int + 32) as char else c
  }

  function Lower(s: string): (r: string)
    ensures |r| == |s|
    ensures forall i :: 0 <= i < |s| ==> r[i] == LowerChar(s[i])
  {
    if |s| == 0 then [] else [LowerChar(s[0])] + Lower(s[1..])
  }

  /** Index of the last `c` in `s`, if any. */
  function LastIndexOf(s: string, c: char): (r: Option<nat>)
    ensures r.Some? ==> r.value < |s| && s[r.value] == c && c !in s[r.value + 1..]
    ensures r.None? ==> c !in s
  {
    if |s| == 0 then None
    else if s[|s| - 1] == c then Some(|s| - 1)
    else
      var r := LastIndexOf(s[..|s| - 1], c);
      assert s == s[..|s| - 1] + [s[|s| - 1]];
      r
  }

  /** An occurrence of `c` with none after it is the one `LastIndexOf` finds. */
  lemma LastIndexOfIsLast(s: string, c: char, i: nat)
    requires i < |s| && s[i] == c && c !in s[i + 1..]
    ensures LastIndexOf(s, c) == Some(i)
  {
    var k := LastIndexOf(s, c).value;
    InSuffix(s, k, i);
    InSuffix(s, i, k);
  }

  /** A later position's character occurs in the suffix after an earlier one. */
  lemma InSuffix(s: string, i: nat, j: nat)
    requires i < |s| && j < |s|
    ensures i < j ==> s[j] in s[i + 1..]
  {
    if i < j { assert s[i + 1..][j - i - 1] == s[j]; }
  }

  /** `s.rsplit(c, 1)[1]`: the text after the last `c`; only meaningful when `c in s`. */
  function AfterLast(s: string, c: char): (r: string)
    requires c in s
    ensures c !in r
    ensures exists i :: 0 <= i < |s| && s[i] == c && r == s[i + 1..]
  {
    var i := LastIndexOf(s, c).value;
    s[i + 1..]
  }

  function DigitChar(d: nat): (r: char)
    requires d < 10
    ensures '0' <= r <= '9'
  {
    ('0' as int + d) as char
  }

  /** Decimal rendering of a natural number, as Python's `str(n)` prints it. */
  function NatToString(n: nat): (r: string)
    ensures |r| >= 1
    ensures forall i :: 0 <= i < |r| ==> '0' <= r[i] <= '9'
  {
    if n < 10 then [DigitChar(n)] else NatToString(n / 10) + [DigitChar(n % 10)]
  }

  /** A non-empty run of decimal digits. */
  predicate IsDigits(s: string) {
    |s| > 0 && forall i :: 0 <= i < |s| ==> '0' <= s[i] <= '9'
  }

  /** The number a run of decimal digits denotes. */
  function DigitsValue(s: string): nat
    requires forall i :: 0 <= i < |s| ==> '0' <= s[i] <= '9'
  {
    if |s| == 0 then 0 else DigitsValue(s[..|s| - 1]) * 10 + (s[|s| - 1] as int - '0' as int)
  }

  /** Reading back a rendered natural number gives the number. */
  lemma {:induction false} DigitsValueOfNatToString(n: nat)
    ensures IsDigits(NatToString(n))
    ensures DigitsValue(NatToString(n)) == n
  {
    if n >= 10 {
      var s := NatToString(n);
      assert s[..|s| - 1] == NatToString(n / 10);
      DigitsValueOfNatToString(n / 10);
    }
  }

  /** Decimal rendering of an integer, with a leading '-' when negative. */
  function IntToString(i: int): string {
    if i < 0 then "-" + NatToString(-i) else NatToString(i)
  }

  /** `s` ends with `t`. */
  predicate EndsWith(s: string, t: string) {
    |t| <= |s| && s[|s| - |t|..] == t
  }
}

=== FILE: wrappers.dfy ===
/** Failure-carrying datatypes shared by every module of the model. */
module Wrappers {

  /** A value that may be absent: a SQL NULL, a missing form key, a row `fetchone` did not find. */
  datatype Option<+T> = None | Some(value: T) {
    function GetOr(default: T): T {
      match this
      case Some(v) => v
      case None => default
    }
  }

  /** The outcome of a step that may raise: `Err` carries the exception's message. */
  datatype Result<+T> = Ok(value: T) | Err(msg: string)
}
